=== FILE: README.md ===
# Carbon footprint dashboard: a Dafny model

This project models the core of a carbon-footprint application. The
application is a Laravel back end with a React dashboard page. It records
greenhouse-gas emissions in the three reporting scopes of the GHG Protocol:

- Scope 1 is direct fuel use.
- Scope 2 is purchased energy, less renewable-energy certificates (REC).
- Scope 3 is the value chain, filed under a category.

The model covers the following:

- **Calculators.** `calculateEmission` of the three emission models. The
  result is activity times factor, divided by 1000. For Scope 2 the REC
  amount is subtracted from the activity first.
- **Record store.** The three record controllers validate the input and
  recompute the cached `emission_result` on create and update. Scopes 2 and 3
  round it to two decimals; Scope 1 does not. Their listings are filtered and
  ordered newest first.
- **Factor catalogue.** The `active` and `byScope` query scopes. The factor
  controller's listing, create and update, and a delete that cascades to every
  record using the factor. Editing a factor leaves the cached results alone.
- **Stakeholders.** The searchable listing, create and update, and a delete
  that is refused while any record references the stakeholder.
- **Dashboard summary.** Per-scope totals and counts under the dashboard
  filters, the grand total, the per-year pie chart, and the department and
  year dropdowns.
- **Dashboard charts.** The 2024 baseline with its fallbacks, the 45% target
  for 2030, and the seven-point trajectory with its measured totals. Also the
  department breakdown and the twelve-month trend.
- **Status alert.** The page's `getEmissionStatus` (danger, warning, success
  or nothing), the default selected year, and when the alert is shown.

The database is an immutable `Store`. It holds one `Table` per entity: rows
with auto-increment ids, in insertion order. Every operation is a function
from a store to a `Result` that is either the new store or an `Error`
(`Invalid(field)`, `NotFound` or `InUse`).

`Valid` is the database invariant: ids are well formed and every record's
references resolve. `CacheConsistent` says every cached result is what its
controller would compute now. The `...Preserves` lemmas show which operations
keep these two properties. `UpdateLeavesStaleResults` shows that editing a
factor breaks `CacheConsistent`.

Amounts are exact `real`s. PHP's `round($x, 2)` is `Decimal.Round2`: the
nearest hundredth, with halves rounded away from zero.

The models compute tons (activity times factor over 1000). The dashboard
divides stored sums by 1000 once more, as if they were kilograms. The
seeders store activity times factor with no division. The model keeps both
divisions as the code has them.

The current year is a parameter (`currentYear`), because the code reads it
from the clock. Modules:

- `common`, `decimal`, `seqs`, `text`: shared vocabulary.
- `domain`, `tables`, `store`: the entities and the database.
- `calculator`, `filters`: the emission formula and the list filters.
- `emission_records`, `emission_factors`, `stakeholders`: the controllers.
- `aggregates`, `dashboard_totals`, `trajectory`, `charts`: the dashboard.
- `emission_status`: the alert.

## Model

| member | source | states |
|---|---|---|
| Calculator.CalculateEmission | app/Models/Scope1Emission.php:48-56 | Without a loaded factor the result is 0; otherwise 1000 times the result is the net activity times the factor value |
| Calculator.Tons | app/Models/Scope1Emission.php:54-55 | The tonnage times 1000 is the activity times the factor, in kilograms |
| Calculator.OnlyInputsMatter | app/Models/Scope1Emission.php:48-56 | The calculation is pure: records with the same net activity and factors with the same value give the same result, whatever the other fields |
| Calculator.ZeroActivity | app/Models/Scope1Emission.php:55 | A Scope 1 or Scope 3 record with zero activity gives 0 for any factor, loaded or not |
| Calculator.MonotoneInActivity | app/Models/Scope1Emission.php:55 | For a non-negative factor, more activity never gives a smaller result |
| Calculator.LinearInActivity | app/Models/Scope1Emission.php:55 | Doubling the activity of a Scope 1 or Scope 3 record doubles its result |
| Calculator.EnergyWithoutCertificates | app/Models/Scope2Emission.php:57-58 | A Scope 2 record with REC 0 gives exactly the Scope 1 result |
| Calculator.CertificatesAboveActivity | app/Models/Scope2Emission.php:57 | Net activity is not clamped: a REC above the activity with a positive factor gives a negative result |
| Calculator.StrictlyDecreasingInCertificates | app/Models/Scope2Emission.php:57-58 | For a positive factor, a larger REC gives a strictly smaller Scope 2 result |
| Calculator.CategoryIrrelevant | app/Models/Scope3Emission.php:49-57 | The Scope 3 category never affects the result, and Scope 3 computes what Scope 1 computes |
| Calculator.StoredResult | app/Http/Controllers/Scope2EmissionController.php:104 | What is cached: the raw result for Scope 1; for Scopes 2 and 3 a two-decimal value within half a hundredth of it, strictly closer on the side towards zero, so a half is stored away from zero |
| Calculator.WorkedExamples | app/Http/Controllers/Scope2EmissionController.php:102-105 | 100 L at 2.68 gives 0.268, stored unrounded for Scope 1; 1000 kWh less 200 kWh REC at 0.78 gives 0.624, stored as 0.62 for Scope 2 |
| Decimal.Round2 | app/Http/Controllers/DashboardController.php:87 | `round($x, 2)` gives a whole number of hundredths within 0.005 of its argument, with the argument's sign, and strictly within 0.005 on the side towards zero, so a tie goes away from zero |
| Decimal.Round2HalfAwayFromZero | app/Http/Controllers/DashboardController.php:87 | Every value exactly halfway between two hundredths, positive or negative, rounds to the one further from zero |
| Decimal.Round2Examples | app/Http/Controllers/DashboardController.php:87 | 0.005 gives 0.01, -0.005 gives -0.01, 0.125 gives 0.13 and 0.004 gives 0 |
| Decimal.Round2Monotone | app/Http/Controllers/DashboardController.php:171 | Rounding never reverses the order of two amounts |
| Decimal.Round2Exact | app/Http/Controllers/DashboardController.php:233 | Rounding a two-decimal value changes nothing |
| Domain.ParseScope | app/Http/Controllers/EmissionFactorController.php:38 | The `in:scope_1,scope_2,scope_3` rule accepts exactly the three scope names, and parsing returns the scope with that name |
| Domain.ParseScopeName | app/Http/Controllers/EmissionFactorController.php:38 | Parsing a scope's stored name gives back the scope |
| Domain.DaysInMonth | app/Http/Controllers/Scope1EmissionController.php:88 | The `date` rule's month lengths lie between 28 and 31 days |
| Domain.MonthLengths | app/Http/Controllers/Scope1EmissionController.php:88 | The twelve month lengths add up to 366 days in a Gregorian leap year and 365 otherwise. Only February depends on the year, with 29 or 28 days. The 31-day months are exactly January, March, May, July, August, October and December |
| Tables.LookupSpec | app/Http/Controllers/EmissionFactorController.php:60 | Route-model binding finds a row exactly when some row has the id, and returns that row's fields |
| Tables.Insert | app/Http/Controllers/EmissionFactorController.php:47 | Creating appends one row under the next id and advances the counter; the new id finds the new fields |
| Tables.Replace | app/Http/Controllers/EmissionFactorController.php:73 | Updating replaces the fields of the rows with that id, in place, and leaves every other row as it was |
| Tables.ReplaceLookup | app/Http/Controllers/EmissionFactorController.php:73 | After an update the updated id finds the new fields and every other id finds what it found before |
| Tables.Retain | app/Http/Controllers/EmissionFactorController.php:81 | A delete keeps exactly the rows the condition keeps, keeps ids well formed, and leaves the counter alone |
| Tables.RetainLookup | app/Http/Controllers/StakeholderController.php:94 | A row that a delete keeps is still found, with the same fields |
| Tables.RetainDrops | app/Http/Controllers/StakeholderController.php:94 | A row that a delete drops is no longer found |
| Filters.NoFilterMatchesAll | app/Http/Controllers/Scope1EmissionController.php:18-37 | With no filter supplied, every record matches |
| Filters.DepartmentNeedsStakeholder | app/Http/Controllers/Scope1EmissionController.php:26-28 | A department filter never matches a record without a stakeholder |
| Filters.BoundsInclusive | app/Http/Controllers/Scope1EmissionController.php:31-37 | Both date bounds are inclusive |
| Seqs.Filter | app/Models/EmissionFactor.php:29-37 | A `where` keeps exactly the elements satisfying its condition, as a subsequence of the input |
| Seqs.FilterCount | app/Http/Controllers/Scope1EmissionController.php:18-39 | A `where` keeps each satisfying element exactly as often as it occurs, and no other |
| Seqs.Sort | app/Http/Controllers/Scope1EmissionController.php:39 | `orderBy` returns a permutation of its input that is sorted by the given total order |
| Seqs.SortedDistinct | app/Http/Controllers/DashboardController.php:53 | `unique()->sort()` keeps exactly the input's values, each once, in order |
| EmissionRecords.Validate | app/Http/Controllers/Scope2EmissionController.php:83-95 | A submission passes exactly when it meets every rule; an absent REC becomes 0 for Scope 2, and Scope 3 takes the required category |
| EmissionRecords.Create | app/Http/Controllers/Scope1EmissionController.php:83-109 | `store` succeeds exactly for acceptable input and appends one record under the next id. The record has the submitted fields, with null for a nullable field left out, and the formula's result, rounded for Scopes 2 and 3. Nothing else changes |
| EmissionRecords.Update | app/Http/Controllers/Scope2EmissionController.php:129-153 | `update` fails with NotFound for a missing id and otherwise succeeds exactly for acceptable input. It writes the submitted fields over the record, keeps the nullable fields the request leaves out, and recomputes the result from the new fields and factor. Every other row and table stays unchanged |
| EmissionRecords.UpdateFields | app/Http/Controllers/Scope1EmissionController.php:131-141 | The updated record takes the submitted factor, date and activity. Each of stakeholder, location and notes keeps its value when left out, is cleared when sent empty, and takes the value sent otherwise |
| EmissionRecords.Destroy | app/Http/Controllers/Scope3EmissionController.php:189-195 | `destroy` fails with NotFound exactly for a missing id and succeeds for every existing one, removing exactly that record |
| EmissionRecords.Index | app/Http/Controllers/Scope3EmissionController.php:16-44 | The listing holds exactly the records meeting every supplied criterion, each as often as stored, newest first; only Scope 3 reads the category |
| EmissionRecords.IndexWithoutFilters | app/Http/Controllers/Scope1EmissionController.php:18-39 | With no criteria the listing is a permutation of all of the scope's records |
| EmissionRecords.IndexDepartmentNeedsStakeholder | app/Http/Controllers/Scope1EmissionController.php:26-28 | With a department criterion no record without a stakeholder is listed |
| EmissionRecords.IndexCategory | app/Http/Controllers/Scope3EmissionController.php:31-33 | A Scope 3 category criterion lists only records of exactly that category; Scopes 1 and 2 ignore it |
| EmissionRecords.BuildResult | app/Http/Controllers/Scope3EmissionController.php:128-131 | The result a request saves is the formula on the submitted activity and the loaded factor, rounded for Scopes 2 and 3, and agrees with the cache rule |
| EmissionRecords.BuildSound | app/Http/Controllers/Scope1EmissionController.php:97-105 | A record built from acceptable input is valid, up to date, and carries the submitted fields |
| EmissionRecords.CreatePreserves | app/Http/Controllers/Scope1EmissionController.php:83-109 | `store` keeps the database invariant and keeps every cached result current |
| EmissionRecords.UpdatePreserves | app/Http/Controllers/Scope1EmissionController.php:129-150 | `update` keeps the database invariant and keeps every cached result current |
| EmissionRecords.DestroyPreserves | app/Http/Controllers/Scope1EmissionController.php:152-158 | `destroy` keeps the database invariant and keeps every cached result current |
| EmissionFactors.Active | app/Models/EmissionFactor.php:29-32 | `active` keeps exactly the factors with the flag set, in order |
| EmissionFactors.ByScope | app/Models/EmissionFactor.php:34-37 | `byScope` keeps exactly the factors of that scope name, in order; a name that is not a scope keeps nothing |
| EmissionFactors.ByScopeIdempotent | app/Models/EmissionFactor.php:34-37 | Applying `byScope` twice is applying it once |
| EmissionFactors.ActiveByScopeCommute | app/Models/EmissionFactor.php:29-37 | `active` and `byScope` give the same list in either order |
| EmissionFactors.ScopesPartition | app/Models/EmissionFactor.php:34-37 | The three `byScope` selections together have exactly as many rows as the catalogue |
| EmissionFactors.Choices | app/Http/Controllers/Scope1EmissionController.php:41-44 | The form's factor choices are exactly the active factors of the scope, each catalogue row at most as often as it is stored, ordered by name |
| EmissionFactors.Index | app/Http/Controllers/EmissionFactorController.php:13-27 | A truthy scope parameter keeps only that scope; the listing is drawn from the catalogue and ordered by scope, then name |
| EmissionFactors.IndexUnfiltered | app/Http/Controllers/EmissionFactorController.php:17-21 | Without a scope parameter the listing is a permutation of the whole catalogue |
| EmissionFactors.ValidateFactor | app/Http/Controllers/EmissionFactorController.php:36-45 | A factor passes exactly when it meets every rule, including a valid scope name and a factor of at least 0 |
| EmissionFactors.Create | app/Http/Controllers/EmissionFactorController.php:34-51 | `store` succeeds exactly for acceptable input and appends the submitted factor under the next id. A nullable field left out is null, and the factor is active unless the request says otherwise. Nothing else changes |
| EmissionFactors.Update | app/Http/Controllers/EmissionFactorController.php:60-77 | `update` fails with NotFound for a missing id and otherwise succeeds exactly for acceptable input. It sets the submitted fields and clears those sent empty. Category, description, source and the flag keep their values when left out. No other factor and no record changes |
| EmissionFactors.Destroy | app/Http/Controllers/EmissionFactorController.php:79-85 | `destroy` fails with NotFound exactly for a missing id and succeeds for every existing one, with the cascade as its result |
| EmissionFactors.CascadeContents | database/migrations/2025_11_25_160330_create_scope_1_emissions_table.php:16 | The cascade removes exactly the factor and, from each scope, exactly the records referencing it; stakeholders and id counters stay |
| EmissionFactors.DestroyLeavesNoReference | database/migrations/2025_11_25_160330_create_scope_2_emissions_table.php:16 | After the delete no record of any scope references the factor |
| EmissionFactors.DestroyPreserves | app/Http/Controllers/EmissionFactorController.php:79-85 | Deleting a factor with its records keeps the database invariant and every remaining cached result |
| EmissionFactors.CreatePreserves | app/Http/Controllers/EmissionFactorController.php:34-51 | Creating a factor keeps the database invariant and every cached result |
| EmissionFactors.UpdatePreservesValid | app/Http/Controllers/EmissionFactorController.php:60-77 | Updating a factor keeps the database invariant |
| EmissionFactors.UpdateSameValueKeepsCache | app/Http/Controllers/EmissionFactorController.php:73 | An update that keeps the factor value keeps every cached result current |
| EmissionFactors.UpdateLeavesStaleResults | app/Http/Controllers/EmissionFactorController.php:73 | Cached results are not recomputed: doubling the factor of a consistent one-record database makes its cached result stale |
| Stakeholders.Check | app/Http/Controllers/StakeholderController.php:45-51 | A stakeholder passes exactly when name and email are non-empty and within 255 characters, the email has an `@`, and the optional fields are within 255 characters |
| Stakeholders.Create | app/Http/Controllers/StakeholderController.php:43-57 | `store` succeeds exactly for acceptable input and appends the submitted stakeholder under the next id. A nullable field left out is null, and a missing alert flag takes the column default. Nothing else changes |
| Stakeholders.Update | app/Http/Controllers/StakeholderController.php:66-80 | `update` fails with NotFound for a missing id and otherwise succeeds exactly for acceptable input. It writes the submitted fields over the stakeholder; those the request leaves out keep their values. No other stakeholder changes |
| Stakeholders.UpdateFields | app/Http/Controllers/StakeholderController.php:68-76 | After an update the stakeholder has the submitted name and email. Position and department each keep their value when left out, are cleared when sent empty, and take the value sent otherwise. The alert flag is kept unless sent |
| Stakeholders.Destroy | app/Http/Controllers/StakeholderController.php:82-98 | `destroy` fails with NotFound for a missing id and with InUse exactly when a record of any scope references the stakeholder. It succeeds exactly for an existing, unreferenced stakeholder, and removes exactly that one |
| Stakeholders.ReferencedIsKept | app/Http/Controllers/StakeholderController.php:85-92 | A single referencing record in any scope makes the delete fail |
| Stakeholders.CreatePreserves | app/Http/Controllers/StakeholderController.php:43-57 | Creating a stakeholder keeps the database invariant and every cached result |
| Stakeholders.UpdatePreserves | app/Http/Controllers/StakeholderController.php:66-80 | Updating a stakeholder keeps the database invariant and every cached result |
| Stakeholders.DestroyPreserves | app/Http/Controllers/StakeholderController.php:82-98 | The guarded delete keeps the database invariant: no record loses its stakeholder |
| Stakeholders.Index | app/Http/Controllers/StakeholderController.php:13-36 | With a search term, exactly the stakeholders whose name, email, department or position contains it are listed; without one, all are. Ids descend |
| Stakeholders.IndexStrictlyDescending | app/Http/Controllers/StakeholderController.php:28 | In a well-formed table the listed ids strictly decrease |
| Stakeholders.EmptySearchListsAll | app/Http/Controllers/StakeholderController.php:18-25 | An empty search term lists every stakeholder |
| Aggregates.ParseYear | app/Http/Controllers/DashboardController.php:122 | A year parameter names a year exactly when it is a non-empty run of digits |
| Aggregates.ParseYearOfText | app/Http/Controllers/DashboardController.php:170 | A year printed as text reads back as itself |
| Aggregates.SumFilterAtMost | app/Http/Controllers/DashboardController.php:84 | Over non-negative results a `where` clause can only lower a sum, never below 0 |
| Aggregates.SumSplit | app/Http/Controllers/DashboardController.php:84 | The rows a condition keeps and the rows it drops sum to the whole |
| DashboardTotals.SelectedRecords | app/Http/Controllers/DashboardController.php:56-62 | A scope query selects exactly the records meeting the department and date criteria, in table order |
| DashboardTotals.FalsyDepartmentIgnored | app/Http/Controllers/DashboardController.php:57-59 | An absent, empty or `"0"` department adds no criterion |
| DashboardTotals.ScopeParam | app/Http/Controllers/DashboardController.php:18 | The scope parameter is `all` when left out, null when sent empty, and the text sent otherwise |
| DashboardTotals.ScopeParamPresence | app/Http/Controllers/DashboardController.php:18-111 | A scope parameter left out shows all three scopes; one sent empty shows none |
| DashboardTotals.Summary | app/Http/Controllers/DashboardController.php:83-91 | A scope has an entry exactly when the scope parameter is `all` (the default when left out) or names it. The count is the number of selected records; the total has two decimals and lies within 0.005 of the selected sum over 1000 |
| DashboardTotals.SummaryTotal | app/Http/Controllers/DashboardController.php:87 | A shown scope's total is the rounded selected sum over 1000 |
| DashboardTotals.UnfilteredSummary | app/Http/Controllers/DashboardController.php:56-91 | With no department and no dates an entry counts and sums every record of the scope |
| DashboardTotals.FilteredTotalAtMost | app/Http/Controllers/DashboardController.php:56-91 | With non-negative results, filters can only lower a scope's total, to between 0 and the unfiltered total |
| DashboardTotals.GrandTotal | app/Http/Controllers/DashboardController.php:114-117 | For `all` the grand total is the sum of the three rounded scope totals |
| DashboardTotals.GrandTotalOfOneScope | app/Http/Controllers/DashboardController.php:83-117 | With a scope parameter naming one scope only that scope has an entry, and the grand total is its total |
| DashboardTotals.ShownAlone | app/Http/Controllers/DashboardController.php:83-103 | A scope parameter naming one scope shows exactly that scope |
| DashboardTotals.GrandTotalOfUnknownScope | app/Http/Controllers/DashboardController.php:83-117 | Any other scope parameter, an empty one included, gives no entries and a grand total of 0 |
| DashboardTotals.GrandTotalCents | app/Http/Controllers/DashboardController.php:114-117 | The grand total has two decimals |
| DashboardTotals.GrandTotalAlreadyRounded | app/Http/Controllers/DashboardController.php:233 | Rounding the grand total again in the response changes nothing |
| DashboardTotals.PieSlice | app/Http/Controllers/DashboardController.php:122-129 | A scope's slice is labelled with the scope and holds a two-decimal value within 0.005 of the year's sum over 1000, strictly closer on the side towards zero, so a half rounds away from zero |
| DashboardTotals.PieChart | app/Http/Controllers/DashboardController.php:120-131 | Without a truthy year the pie is empty; otherwise it is the three scope slices in order, ignoring the dashboard filters |
| DashboardTotals.PieOfUnknownYear | app/Http/Controllers/DashboardController.php:121-130 | A year text that is not a number gives three slices of 0 |
| DashboardTotals.NamedDepartments | app/Http/Controllers/DashboardController.php:25-29 | `whereNotNull('department')->pluck` yields exactly the departments some stakeholder has |
| DashboardTotals.DepartmentOptions | app/Http/Controllers/DashboardController.php:25-29 | The department dropdown holds exactly the non-null departments, each once, sorted |
| DashboardTotals.AvailableYears | app/Http/Controllers/DashboardController.php:37-53 | The year dropdown holds exactly the years some record of some scope was measured in, strictly increasing |
| DashboardTotals.YearsOfRecords | app/Http/Controllers/DashboardController.php:37-52 | The merged per-scope year lists hold exactly the years of the records |
| DashboardTotals.YearColumnHas | app/Http/Controllers/DashboardController.php:39-41 | A scope's year list holds exactly the years its records were measured in |
| Trajectory.Baseline | app/Http/Controllers/DashboardController.php:135-142 | The baseline is never 0. A non-zero 2024 sum gives that sum over 1000; otherwise the baseline is the grand total when it is positive, and 752733.86 only when it is not |
| Trajectory.DashboardBaseline | app/Http/Controllers/DashboardController.php:113-141 | Without 2024 data the baseline is the grand total of the request's scope, department and date filters when that is positive, and 752733.86 otherwise |
| Trajectory.BaselineAndFilters | app/Http/Controllers/DashboardController.php:113-141 | With 2024 data the filters never change the baseline; two filter sets with the same grand total always give the same baseline |
| Trajectory.Target2030 | app/Http/Controllers/DashboardController.php:144 | The 2030 target is the baseline reduced by 45% of itself |
| Trajectory.TargetEndpoints | app/Http/Controllers/DashboardController.php:150-154 | The line gives the baseline in 2024 and the 2030 target, 55% of the baseline, in 2030 |
| Trajectory.TargetStep | app/Http/Controllers/DashboardController.php:152-154 | Each year lowers the target by 7.5% of the baseline |
| Trajectory.TargetFor | app/Http/Controllers/DashboardController.php:150-154 | The target of year y is the baseline less 7.5% of it for every year after 2024 |
| Trajectory.TargetNonIncreasing | app/Http/Controllers/DashboardController.php:150-154 | For a non-negative baseline the target never rises from a year to a later one |
| Trajectory.Actual | app/Http/Controllers/DashboardController.php:156-172 | A point has a measured total exactly when its year is not after the current one and its sum is not 0, the current year included; the total is the rounded sum over 1000 |
| Trajectory.Chart | app/Http/Controllers/DashboardController.php:147-174 | The trajectory has seven points |
| Trajectory.DashboardChart | app/Http/Controllers/DashboardController.php:135-174 | The trajectory the dashboard sends has seven points; point k carries the rounded target of year 2024 + k from the filtered baseline, and that year's measured total |
| Trajectory.DashboardChartFromGrandTotal | app/Http/Controllers/DashboardController.php:113-154 | Without 2024 data and with a positive filtered grand total, the trajectory starts at that grand total and ends at 55% of it, rounded |
| Trajectory.ChartYear | app/Http/Controllers/DashboardController.php:170 | Point k is labelled with the year 2024 + k |
| Trajectory.ChartTarget | app/Http/Controllers/DashboardController.php:171 | Point k carries the rounded target of year 2024 + k |
| Trajectory.ChartActual | app/Http/Controllers/DashboardController.php:172 | Point k carries the measured total of year 2024 + k |
| Trajectory.ChartYears | app/Http/Controllers/DashboardController.php:150-170 | The chart's year labels read back as 2024 to 2030 and are pairwise different |
| Trajectory.ChartEndpoints | app/Http/Controllers/DashboardController.php:150-171 | The first point carries the rounded baseline and the last the rounded 2030 target |
| Trajectory.ChartTargetsNonIncreasing | app/Http/Controllers/DashboardController.php:150-171 | For a non-negative baseline the rounded targets never rise along the chart |
| Trajectory.ChartActuals | app/Http/Controllers/DashboardController.php:157-172 | A future year has no measured point, and neither has a year whose sum is 0 |
| Trajectory.FallbackTarget | app/Http/Controllers/DashboardController.php:141-144 | With the report-figure fallback the rounded 2030 target is 414003.62 tons |
| Charts.Groups | app/Http/Controllers/DashboardController.php:196 | The department groups are exactly the department values of the stakeholders, NULL included, each once |
| Charts.Label | app/Http/Controllers/DashboardController.php:202 | A group is labelled N/A exactly when its department is null, empty or `"0"`, or is itself `N/A`; otherwise it is labelled with its department |
| Charts.Entries | app/Http/Controllers/DashboardController.php:191-205 | One entry per group with a positive unrounded total, in group order and none for the other groups; each entry is that group's label and rounded total |
| Charts.DepartmentChart | app/Http/Controllers/DashboardController.php:177-206 | Without a truthy year the breakdown is empty; a year that is not a run of digits gives an empty breakdown; otherwise it is the entries of all groups for that year |
| Charts.DepartmentValuesNonNegative | app/Http/Controllers/DashboardController.php:197-203 | Every value shown in the breakdown is at least 0 |
| Charts.AbsentGroupIsZero | app/Http/Controllers/DashboardController.php:188-196 | A department no stakeholder has sums to 0 |
| Charts.NoStakeholderNoGroup | app/Http/Controllers/DashboardController.php:188-194 | A record without a stakeholder counts towards no department |
| Charts.MonthlyYear | app/Http/Controllers/DashboardController.php:210 | The trend uses the year parameter when truthy, else the current year |
| Charts.MonthPointFor | app/Http/Controllers/DashboardController.php:213-228 | Month m's point is named after the month and holds a two-decimal value within 0.005 of the month's sum over 1000, strictly closer on the side towards zero, so a half rounds away from zero |
| Charts.Monthly | app/Http/Controllers/DashboardController.php:209-229 | The trend has twelve points, January to December, each the point of its month |
| Charts.MonthsMakeYear | app/Http/Controllers/DashboardController.php:215-223 | Over records dated in months 1 to 12, a scope's twelve month sums add up to its year sum |
| Charts.MonthlyAddsUpToYear | app/Http/Controllers/DashboardController.php:212-229 | In a valid database the twelve unrounded monthly totals add up to the year's three-scope total |
| EmissionStatus.Percentage | resources/js/pages/dashboard.tsx:218 | The percentage is a number exactly when the target is not 0 |
| EmissionStatus.PercentageValue | resources/js/pages/dashboard.tsx:218 | The percentage times the target is 100 times the actual |
| EmissionStatus.DangerIff | resources/js/pages/dashboard.tsx:220 | Danger exactly when the actual exceeds the target |
| EmissionStatus.Classify | resources/js/pages/dashboard.tsx:218-245 | The class is danger exactly when the actual exceeds the target; a zero target never gives warning |
| EmissionStatus.PositiveTarget | resources/js/pages/dashboard.tsx:218-236 | For a positive target: warning exactly from 90% of the target up to it, success exactly below 90% |
| EmissionStatus.SuccessReduction | resources/js/pages/dashboard.tsx:236-238 | On success with a positive target the reported reduction exceeds 10% |
| EmissionStatus.NegativeTarget | resources/js/pages/dashboard.tsx:218-228 | A negative target that is not exceeded gives warning |
| EmissionStatus.ZeroTarget | resources/js/pages/dashboard.tsx:218-236 | A zero target that is not exceeded gives success, since the NaN or -Infinity percentage is never at least 90 |
| EmissionStatus.ClassifyMonotone | resources/js/pages/dashboard.tsx:220-245 | Raising the actual never gives a less serious class |
| EmissionStatus.Find | resources/js/pages/dashboard.tsx:208-210 | `find` gives nothing exactly when no point has the year, and otherwise the first point with it |
| EmissionStatus.FindFirst | resources/js/pages/dashboard.tsx:208-210 | `find` returns the first point of the year it looks for |
| EmissionStatus.Status | resources/js/pages/dashboard.tsx:206-214 | There is no status exactly when no point has the selected year or that point has no measured total |
| EmissionStatus.StatusOfFound | resources/js/pages/dashboard.tsx:206-246 | Otherwise the status classifies the first matching point's measured total against its target |
| EmissionStatus.FindChartYear | resources/js/pages/dashboard.tsx:208-210 | On the chart, looking up a year from 2024 to 2030 finds that year's point |
| EmissionStatus.StatusOfChartYear | resources/js/pages/dashboard.tsx:208-214 | On the chart a year from 2024 to 2030 has a status exactly when it is not in the future and its sum is not 0 |
| EmissionStatus.SelectedYear | resources/js/pages/dashboard.tsx:143-147 | The selected year is the request's year when it is not blank, otherwise the current year as text |
| EmissionStatus.NoStatusForAll | resources/js/pages/dashboard.tsx:494 | The chart has no status for `all` |
| EmissionStatus.DefaultYearAlert | resources/js/pages/dashboard.tsx:143-147 | With no year requested and the current year in 2024 to 2030, the alert shows exactly when that year's sum is not 0 |

## Left out

- User interface: React rendering, form state, router calls, charts, and message texts with their `toLocaleString`/`toFixed` formatting. The model keeps only the data the dashboard page computes on.
- Seeders: they use randomness and console output, and they store results with no division by 1000. The dashboard's second division by 1000 is modelled as written.
- Pagination (`paginate(15)`, `paginate(10)`): listings are modelled as the full ordered result. The per-scope `emissions` page of the dashboard is not modelled.
- SQL dialect selection (`strftime` against `YEAR`): dates are (year, month, day) values compared in that order.
- The department breakdown's three-table LEFT JOIN multiplies rows when a stakeholder has records in more than one scope table. It is modelled as a per-department sum of each stakeholder's records in the year, without the fan-out.
- SQL `GROUP BY` returns groups in an order the database chooses. The model takes the order of first appearance in the stakeholder table.
- Number precision: PHP floats and the decimal column types are modelled as exact reals. That covers the `decimal:2`/`decimal:4` casts and the column rounding of Scope 1's unrounded result.
- Number precision on the page: the alert's `(actual / target) * 100 >= 90` runs in JavaScript doubles, and the model computes it in exact reals. Near the 90% boundary the two can disagree: actual 8.10 against target 9.00 gives 89.99999999999999 in doubles, hence success, where the exact percentage 90 gives warning.
- EmissionStatus.Classify: classifies with the exact percentage; on inputs whose double-precision percentage lands just below or above 90 the page can show the neighbouring class.
- EmissionStatus.PositiveTarget: its boundary at exactly 90% of the target holds for exact reals only; the page's double arithmetic can move values within rounding error of that boundary to the other class.
- The clock (`date('Y')`, `new Date()`): the current year is a parameter.
- String comparison follows Unicode code points: `orderBy('name')`, `orderBy('scope')`, `orderBy('department')`, `distinct()` and `where('department', ...)` use plain code-point order and exact equality. The database's collation may instead ignore case or accents; that is not modelled. This affects `EmissionFactors.Index`, `EmissionFactors.Choices`, `DashboardTotals.DepartmentOptions` and the department criteria of the listings and the dashboard.
- `LIKE` matching is modelled as case-sensitive substring search. Case folding and `%`/`_` wildcards inside the search term are not modelled.
- The `email` validation rule is modelled only as "contains `@`". String lengths count characters.
- The `receive_alerts` column default comes from a migration that is not part of this model. It is the `alertsDefault` parameter of `Stakeholders.Create`.
- Laravel reports every failing field at once. The validators name one failing field, so the error field can differ when several rules fail.
- Request fields are modelled after Laravel's `TrimStrings` and `ConvertEmptyStringsToNull` middleware. A field for a nullable column is left out, sent empty (null) or sent with a value; `store` and `update` write only the fields that were sent. Scope 2's REC value is set to 0 when missing or null, so it is always written.
- Request dates are taken as already parsed. Date strings that fail to parse are not modelled.
- A year text that is not a run of digits matches no record. The database's own comparison of such text is not modelled.
- Authentication, `created_by`, timestamps, redirects, flash messages, routes, menus, and the `create`/`edit` form pages.
- EmissionStatus.Status: its contract states only when a status exists. Which status it is is stated by `EmissionStatus.StatusOfFound`, for the first point of the selected year.
- DashboardTotals.GrandTotal: its contract states the sum for the scope parameter `all`. The single-scope and unknown-scope cases are stated by `DashboardTotals.GrandTotalOfOneScope` and `DashboardTotals.GrandTotalOfUnknownScope`.
- Trajectory.Chart: its contract states only the number of points. The content of each point is stated by `Trajectory.ChartYear`, `Trajectory.ChartTarget` and `Trajectory.ChartActual`.

=== FILE: aggregates.dfy ===
/** The `sum('emission_result')` aggregates the dashboard is built from, and
    the `whereYear` / `whereMonth` conditions they are taken under. */
module Aggregates {
  import opened Common
  import opened Domain
  import opened Seqs
  import opened Text
  import opened Store

  /** `sum('emission_result')` over some rows; 0 for no rows. */
  function SumResults(rows: seq<Row<Emission>>): real {
    if |rows| == 0 then 0.0 else rows[0].val.result + SumResults(rows[1..])
  }

  /** Every cached result is at least 0. */
  predicate NonNegative(rows: seq<Row<Emission>>) {
    forall i :: 0 <= i < |rows| ==> rows[i].val.result >= 0.0
  }

  /** The sum over a concatenation is the sum of the sums. */
  lemma {:induction false} SumAppend(a: seq<Row<Emission>>, b: seq<Row<Emission>>)
    ensures SumResults(a + b) == SumResults(a) + SumResults(b)
  {
    if |a| == 0 {
      assert a + b == b;
    } else {
      assert (a + b)[1..] == a[1..] + b;
      SumAppend(a[1..], b);
    }
  }

  /** Over non-negative results a `where` clause can only lower the sum. */
  lemma {:induction false} SumFilterAtMost(rows: seq<Row<Emission>>, p: Row<Emission> -> bool)
    requires NonNegative(rows)
    ensures 0.0 <= SumResults(Filter(rows, p)) <= SumResults(rows)
  {
    if |rows| > 0 {
      FilterCons(rows, p);
      SumFilterAtMost(rows[1..], p);
      SumAppend(if p(rows[0]) then [rows[0]] else [], Filter(rows[1..], p));
    }
  }

  /** The rows a condition keeps and the rows it drops sum to the whole. */
  lemma {:induction false} SumSplit(rows: seq<Row<Emission>>, p: Row<Emission> -> bool)
    ensures SumResults(Filter(rows, p)) + SumResults(Filter(rows, (x: Row<Emission>) => !p(x))) == SumResults(rows)
  {
    if |rows| > 0 {
      var q := (x: Row<Emission>) => !p(x);
      FilterCons(rows, p);
      FilterCons(rows, q);
      SumSplit(rows[1..], p);
      SumAppend(if p(rows[0]) then [rows[0]] else [], Filter(rows[1..], p));
      SumAppend(if q(rows[0]) then [rows[0]] else [], Filter(rows[1..], q));
    }
  }

  /** `whereYear('measurement_date', y)`. */
  function InYear(y: int): Row<Emission> -> bool {
    (x: Row<Emission>) => x.val.date.year == y
  }

  /** `whereYear(..., y)->whereMonth(..., m)`. */
  function InMonth(y: int, m: int): Row<Emission> -> bool {
    (x: Row<Emission>) => x.val.date.year == y && x.val.date.month == m
  }

  /** The sum of a scope's results measured in year `y`. */
  function YearSum(st: Store, s: Scope, y: int): real {
    SumResults(Filter(Emissions(st, s).rows, InYear(y)))
  }

  /** The sum of all three scopes' results measured in year `y`. */
  function AllScopesYearSum(st: Store, y: int): real {
    YearSum(st, Scope1, y) + YearSum(st, Scope2, y) + YearSum(st, Scope3, y)
  }

  /** The sum of all three scopes' results measured in month `m` of year `y`. */
  function AllScopesMonthSum(st: Store, y: int, m: int): real {
    SumResults(Filter(st.scope1.rows, InMonth(y, m)))
    + SumResults(Filter(st.scope2.rows, InMonth(y, m)))
    + SumResults(Filter(st.scope3.rows, InMonth(y, m)))
  }

  /** The year a request's `year` text names when compared with the year of a
      date: a non-empty run of decimal digits, read as a number. Any other text
      names no year and matches no date. */
  function ParseYear(text: string): (r: Option<int>)
    ensures r.Some? <==> |text| > 0 && AllDigits(text)
    ensures r.Some? ==> r.value >= 0
  {
    if |text| > 0 && AllDigits(text) then Some(ParseNat(text)) else None
  }

  /** A printed year reads back as itself. */
  lemma ParseYearOfText(n: nat)
    ensures ParseYear(NatToString(n)) == Some(n)
  {
    ParseNatToString(n);
  }

  /** `whereYear('measurement_date', $year)` summed, for request text `$year`. */
  function YearTextSum(st: Store, s: Scope, text: string): real {
    match ParseYear(text)
    case None => 0.0
    case Some(y) => YearSum(st, s, y)
  }
}

=== FILE: calculator.dfy ===
/** `calculateEmission` of the three emission record models. The division by
    1000 converts kilograms of CO2-equivalent into tons. */
module Calculator {
  import opened Common
  import opened Domain
  import opened Decimal

  /** The activity the factor applies to: Scope 2 subtracts the certificates, unclamped. */
  function NetActivity(e: Emission): real {
    match e.detail
    case Energy(rec) => e.activity - rec
    case _ => e.activity
  }

  /** Kilograms of activity-times-factor expressed in tons. */
  function Tons(amount: real, factor: real): (r: real)
    ensures r * 1000.0 == amount * factor
  {
    amount * factor / 1000.0
  }

  /** The emission of a record given its loaded factor, 0 when no factor is loaded. */
  function CalculateEmission(e: Emission, factor: Option<EmissionFactor>): (r: real)
    ensures factor.None? ==> r == 0.0
    ensures factor.Some? ==> r * 1000.0 == NetActivity(e) * factor.value.factor
  {
    if factor.None? then 0.0
    else Tons(NetActivity(e), factor.value.factor)
  }

  /** What the controllers store in `emission_result`: Scope 1 keeps the raw
      result, Scopes 2 and 3 round it to two decimals first. */
  function StoredResult(scope: Scope, raw: real): (r: real)
    ensures scope == Scope1 ==> r == raw
    ensures scope != Scope1 ==> IsCents(r) && -0.005 <= r - raw <= 0.005
    ensures scope != Scope1 && 0.0 < raw ==> raw - r < 0.005
    ensures scope != Scope1 && raw < 0.0 ==> r - raw < 0.005
  {
    if scope == Scope1 then raw else Round2(raw)
  }

  /** The result depends on nothing but the activity, the certificates and the
      factor value: not on the date, stakeholder, unit, notes or factor metadata. */
  lemma OnlyInputsMatter(e1: Emission, e2: Emission, f1: EmissionFactor, f2: EmissionFactor)
    requires NetActivity(e1) == NetActivity(e2) && f1.factor == f2.factor
    ensures CalculateEmission(e1, Some(f1)) == CalculateEmission(e2, Some(f2))
  {
  }

  /** No activity, no emission, whatever the factor. */
  lemma ZeroActivity(e: Emission, f: Option<EmissionFactor>)
    requires e.activity == 0.0 && !e.detail.Energy?
    ensures CalculateEmission(e, f) == 0.0
  {
  }

  /** For a non-negative factor, more activity never means less emission. */
  lemma MonotoneInActivity(e1: Emission, e2: Emission, f: EmissionFactor)
    requires e1.detail == e2.detail && e1.activity <= e2.activity && f.factor >= 0.0
    ensures CalculateEmission(e1, Some(f)) <= CalculateEmission(e2, Some(f))
  {
    var d := e2.activity - e1.activity;
    assert NetActivity(e2) == NetActivity(e1) + d;
    assert NetActivity(e2) * f.factor == NetActivity(e1) * f.factor + d * f.factor;
  }

  /** Doubling the activity of a Scope 1 or Scope 3 record doubles its emission. */
  lemma LinearInActivity(e: Emission, f: EmissionFactor)
    requires !e.detail.Energy?
    ensures CalculateEmission(e.(activity := 2.0 * e.activity), Some(f))
         == 2.0 * CalculateEmission(e, Some(f))
  {
  }

  /** With no certificates, Scope 2 computes exactly what Scope 1 computes. */
  lemma EnergyWithoutCertificates(e: Emission, f: Option<EmissionFactor>)
    requires e.detail == Energy(0.0)
    ensures CalculateEmission(e, f) == CalculateEmission(e.(detail := Direct), f)
  {
  }

  /** Net activity is not clamped: certificates above the activity give a negative emission. */
  lemma CertificatesAboveActivity(e: Emission, f: EmissionFactor)
    requires e.detail.Energy? && e.detail.rec > e.activity && f.factor > 0.0
    ensures CalculateEmission(e, Some(f)) < 0.0
  {
    assert NetActivity(e) < 0.0;
    assert NetActivity(e) * f.factor < 0.0;
  }

  /** For a positive factor, more certificates strictly lower the Scope 2 emission. */
  lemma StrictlyDecreasingInCertificates(e: Emission, rec1: real, rec2: real, f: EmissionFactor)
    requires rec1 < rec2 && f.factor > 0.0
    ensures CalculateEmission(e.(detail := Energy(rec2)), Some(f))
          < CalculateEmission(e.(detail := Energy(rec1)), Some(f))
  {
    var d := rec2 - rec1;
    assert (e.activity - rec1) * f.factor == (e.activity - rec2) * f.factor + d * f.factor;
  }

  /** The Scope 3 category never affects the result, and Scope 3 computes what Scope 1 computes. */
  lemma CategoryIrrelevant(e: Emission, c1: string, c2: string, f: Option<EmissionFactor>)
    ensures CalculateEmission(e.(detail := ValueChain(c1)), f)
         == CalculateEmission(e.(detail := ValueChain(c2)), f)
         == CalculateEmission(e.(detail := Direct), f)
  {
  }

  /** Worked examples: 100 litres of diesel at 2.68 kg CO2eq per litre, and
      1000 kWh less 200 kWh of certificates at 0.78 kg CO2eq per kWh. */
  lemma WorkedExamples(e: Emission, diesel: EmissionFactor, grid: EmissionFactor)
    requires diesel.factor == 2.68 && grid.factor == 0.78
    ensures CalculateEmission(e.(activity := 100.0, detail := Direct), Some(diesel)) == 0.268
    ensures StoredResult(Scope1, CalculateEmission(e.(activity := 100.0, detail := Direct), Some(diesel))) == 0.268
    ensures StoredResult(Scope2, CalculateEmission(e.(activity := 1000.0, detail := Energy(200.0)), Some(grid))) == 0.62
  {
    assert (0.624 * 100.0 + 0.5).Floor == 62;
  }
}

=== FILE: charts.dfy ===
/** The two remaining charts of the dashboard: the emissions of a year broken
    down by stakeholder department, and the twelve-month trend. */
module Charts {
  import opened Common
  import opened Domain
  import opened Decimal
  import opened Seqs
  import opened Store
  import opened Aggregates
  import opened DashboardTotals

  /** Records of stakeholder `id` measured in year `y`: the `CASE WHEN` of
      the department query. */
  function OfStakeholderIn(id: nat, y: int): Row<Emission> -> bool {
    (x: Row<Emission>) => x.val.stakeholderId == Some(id) && x.val.date.year == y
  }

  /** The results of one stakeholder in year `y`, over the three scopes. */
  function StakeholderYearSum(st: Store, id: nat, y: int): real {
    SumResults(Filter(st.scope1.rows, OfStakeholderIn(id, y)))
    + SumResults(Filter(st.scope2.rows, OfStakeholderIn(id, y)))
    + SumResults(Filter(st.scope3.rows, OfStakeholderIn(id, y)))
  }

  /** The summed results, in year `y`, of those of `people` whose department
      column holds `dept` (`None` is the SQL `NULL` group). */
  function GroupSum(st: Store, people: seq<Row<Stakeholder>>, dept: Option<string>, y: int): real {
    if |people| == 0 then 0.0
    else
      (if people[0].val.department == dept then StakeholderYearSum(st, people[0].id, y) else 0.0)
      + GroupSum(st, people[1..], dept, y)
  }

  /** The `total` of a department group, in tons. */
  function DepartmentTotal(st: Store, dept: Option<string>, y: int): real {
    GroupSum(st, st.stakeholders.rows, dept, y) / 1000.0
  }

  /** The department column of some stakeholders, in table order. */
  function DepartmentColumn(people: seq<Row<Stakeholder>>): (r: seq<Option<string>>)
    ensures |r| == |people|
    ensures forall i :: 0 <= i < |people| ==> r[i] == people[i].val.department
  {
    seq(|people|, i requires 0 <= i < |people| => people[i].val.department)
  }

  /** `groupBy('stakeholders.department')`: each department value once, `NULL`
      included, in the order of first appearance. */
  function Groups(st: Store): (r: seq<Option<string>>)
    ensures forall d :: d in r <==> exists i :: 0 <= i < |st.stakeholders.rows| && st.stakeholders.rows[i].val.department == d
    ensures forall i, j :: 0 <= i < j < |r| ==> r[i] != r[j]
  {
    var column := DepartmentColumn(st.stakeholders.rows);
    var r := Dedup(column);
    assert forall d :: d in column <==> exists i :: 0 <= i < |column| && column[i] == d;
    r
  }

  /** `$sh->department ?: 'N/A'`: a null or falsy department reads `N/A`. */
  function Label(dept: Option<string>): (r: string)
    ensures r == "N/A" <==> !GivenTruthy(dept) || dept.value == "N/A"
    ensures GivenTruthy(dept) ==> r == dept.value
  {
    if GivenTruthy(dept) then dept.value else "N/A"
  }

  /** The entries of some groups under `havingRaw('total > 0')`: the groups
      whose unrounded total is positive, labelled, with the rounded total. */
  function Entries(st: Store, groups: seq<Option<string>>, y: int): (r: seq<Slice>)
    ensures |r| <= |groups|
    ensures forall e :: e in r ==>
      exists g :: g in groups && DepartmentTotal(st, g, y) > 0.0 && e == Slice(Label(g), Round2(DepartmentTotal(st, g, y)))
    ensures forall g :: g in groups && DepartmentTotal(st, g, y) > 0.0 ==>
      Slice(Label(g), Round2(DepartmentTotal(st, g, y))) in r
    ensures var kept := Filter(groups, (g: Option<string>) => DepartmentTotal(st, g, y) > 0.0);
      && |r| == |kept|
      && forall k :: 0 <= k < |r| ==> r[k] == Slice(Label(kept[k]), Round2(DepartmentTotal(st, kept[k], y)))
  {
    if |groups| == 0 then []
    else
      var g := groups[0];
      var rest := Entries(st, groups[1..], y);
      FilterCons(groups, (g: Option<string>) => DepartmentTotal(st, g, y) > 0.0);
      assert forall h :: h in groups <==> h == g || h in groups[1..];
      if DepartmentTotal(st, g, y) > 0.0 then [Slice(Label(g), Round2(DepartmentTotal(st, g, y)))] + rest
      else rest
  }

  /** `$stakeholderChartData`: nothing without a truthy `year`; otherwise one
      entry per department group with a positive total in that year. A year
      text that is not a number matches no record. */
  function DepartmentChart(st: Store, year: Option<string>): (r: seq<Slice>)
    ensures !GivenTruthy(year) ==> r == []
    ensures GivenTruthy(year) && ParseYear(year.value).Some? ==> r == Entries(st, Groups(st), ParseYear(year.value).value)
    ensures GivenTruthy(year) && ParseYear(year.value).None? ==> r == []
  {
    if !GivenTruthy(year) then []
    else
      match ParseYear(year.value)
      case None => []
      case Some(y) => Entries(st, Groups(st), y)
  }

  /** Every value shown in the department chart is positive before rounding,
      hence at least 0 after it. */
  lemma DepartmentValuesNonNegative(st: Store, year: Option<string>, e: Slice)
    requires e in DepartmentChart(st, year)
    ensures e.value >= 0.0
  {
    var y := ParseYear(year.value).value;
    var g :| g in Groups(st) && DepartmentTotal(st, g, y) > 0.0 && e == Slice(Label(g), Round2(DepartmentTotal(st, g, y)));
  }

  /** A department that no stakeholder has sums to 0, so it never appears. */
  lemma {:induction false} AbsentGroupIsZero(st: Store, people: seq<Row<Stakeholder>>, dept: Option<string>, y: int)
    requires forall i :: 0 <= i < |people| ==> people[i].val.department != dept
    ensures GroupSum(st, people, dept, y) == 0.0
  {
    if |people| > 0 {
      AbsentGroupIsZero(st, people[1..], dept, y);
    }
  }

  /** A record counts towards a stakeholder in year `y` exactly when it
      belongs to that stakeholder and was measured in `y`; records without a
      stakeholder count towards none. */
  lemma NoStakeholderNoGroup(st: Store, id: nat, y: int, x: Row<Emission>)
    requires x.val.stakeholderId.None?
    ensures !OfStakeholderIn(id, y)(x)
  {
  }

  /** A chart point of the monthly trend. */
  datatype MonthPoint = MonthPoint(month: string, total: real)

  /** `date('M', mktime(0, 0, 0, $m, 1))`: the English short month name. */
  function MonthName(m: int): string
    requires 1 <= m <= 12
  {
    ["Jan", "Feb", "Mar", "Apr", "May", "Jun", "Jul", "Aug", "Sep", "Oct", "Nov", "Dec"][m - 1]
  }

  /** `$year ?: $currentYear`, read as a year: `None` when the request text
      is not a number, in which case no record matches. */
  function MonthlyYear(year: Option<string>, currentYear: int): (r: Option<int>)
    ensures !GivenTruthy(year) ==> r == Some(currentYear)
    ensures GivenTruthy(year) ==> r == ParseYear(year.value)
  {
    if GivenTruthy(year) then ParseYear(year.value) else Some(currentYear)
  }

  /** The three-scope results of month `m` of the chosen year, in kg. */
  function MonthTotal(st: Store, y: Option<int>, m: int): real {
    match y
    case None => 0.0
    case Some(v) => AllScopesMonthSum(st, v, m)
  }

  /** The point of month `m`: its name and its total in tons, rounded. */
  function MonthPointFor(st: Store, y: Option<int>, m: int): (p: MonthPoint)
    requires 1 <= m <= 12
    ensures p.month == MonthName(m)
    ensures IsCents(p.total) && -0.005 <= p.total - MonthTotal(st, y, m) / 1000.0 <= 0.005
    ensures 0.0 < MonthTotal(st, y, m) / 1000.0 ==> MonthTotal(st, y, m) / 1000.0 - p.total < 0.005
    ensures MonthTotal(st, y, m) / 1000.0 < 0.0 ==> p.total - MonthTotal(st, y, m) / 1000.0 < 0.005
  {
    MonthPoint(MonthName(m), Round2(MonthTotal(st, y, m) / 1000.0))
  }

  /** `$monthlyChartData`: twelve points, January to December, for the
      requested year or else the current one. */
  function Monthly(st: Store, year: Option<string>, currentYear: int): (r: seq<MonthPoint>)
    ensures |r| == 12
    ensures forall k :: 0 <= k < 12 ==> r[k] == MonthPointFor(st, MonthlyYear(year, currentYear), k + 1)
  {
    seq(12, k requires 0 <= k < 12 => MonthPointFor(st, MonthlyYear(year, currentYear), k + 1))
  }

  /** The sum of the results of months 1 to `n` of year `y` in some rows. */
  function MonthsUpTo(rows: seq<Row<Emission>>, y: int, n: int): real
    decreases n
  {
    if n < 1 then 0.0 else MonthsUpTo(rows, y, n - 1) + SumResults(Filter(rows, InMonth(y, n)))
  }

  /** Adding a row to the front adds its result to the months up to `n` exactly
      when it falls in one of them. */
  lemma {:induction false} MonthsUpToCons(rows: seq<Row<Emission>>, y: int, n: int)
    requires |rows| > 0
    ensures MonthsUpTo(rows, y, n)
      == (if rows[0].val.date.year == y && 1 <= rows[0].val.date.month <= n then rows[0].val.result else 0.0)
         + MonthsUpTo(rows[1..], y, n)
    decreases n
  {
    if n >= 1 {
      MonthsUpToCons(rows, y, n - 1);
      FilterCons(rows, InMonth(y, n));
      SumAppend(if InMonth(y, n)(rows[0]) then [rows[0]] else [], Filter(rows[1..], InMonth(y, n)));
    }
  }

  /** Over rows dated in months 1 to 12, the twelve month sums of a year add up
      to the year's sum. */
  lemma {:induction false} MonthsMakeYear(rows: seq<Row<Emission>>, y: int)
    requires forall i :: 0 <= i < |rows| ==> 1 <= rows[i].val.date.month <= 12
    ensures MonthsUpTo(rows, y, 12) == SumResults(Filter(rows, InYear(y)))
  {
    if |rows| > 0 {
      MonthsUpToCons(rows, y, 12);
      MonthsMakeYear(rows[1..], y);
      FilterCons(rows, InYear(y));
      SumAppend(if InYear(y)(rows[0]) then [rows[0]] else [], Filter(rows[1..], InYear(y)));
    }
  }

  /** The unrounded totals of months 1 to `n` of the trend, added up. */
  function MonthTotalsUpTo(st: Store, y: Option<int>, n: int): real
    decreases n
  {
    if n < 1 then 0.0 else MonthTotalsUpTo(st, y, n - 1) + MonthTotal(st, y, n)
  }

  /** Adding up month totals is adding up each scope's month sums. */
  lemma {:induction false} MonthTotalsByScope(st: Store, y: int, n: int)
    ensures MonthTotalsUpTo(st, Some(y), n)
      == MonthsUpTo(st.scope1.rows, y, n) + MonthsUpTo(st.scope2.rows, y, n) + MonthsUpTo(st.scope3.rows, y, n)
    decreases n
  {
    if n >= 1 {
      MonthTotalsByScope(st, y, n - 1);
    }
  }

  /** In a valid store every record has a month from 1 to 12, so the twelve
      unrounded monthly totals of the trend add up to the year's three-scope
      total. */
  lemma MonthlyAddsUpToYear(st: Store, y: int)
    requires Valid(st)
    ensures MonthTotalsUpTo(st, Some(y), 12) == AllScopesYearSum(st, y)
  {
    assert Emissions(st, Scope1) == st.scope1;
    assert Emissions(st, Scope2) == st.scope2;
    assert Emissions(st, Scope3) == st.scope3;
    forall s, i | 0 <= i < |Emissions(st, s).rows|
      ensures 1 <= Emissions(st, s).rows[i].val.date.month <= 12
    {
      assert RecordValid(st, s, Emissions(st, s).rows[i].val);
    }
    MonthTotalsByScope(st, y, 12);
    MonthsMakeYear(st.scope1.rows, y);
    MonthsMakeYear(st.scope2.rows, y);
    MonthsMakeYear(st.scope3.rows, y);
  }
}

=== FILE: common.dfy ===
/** Shared vocabulary: optional values, outcomes of store operations, and the
    two ways the application decides whether a request value "is given". */
module Common {

  /** A value that may be absent: a nullable column, or a request value that
      is missing or null. */
  datatype Option<+T> = None | Some(value: T) {

    /** The wrapped value, or `default` when absent (PHP's `??`). */
    function GetOr(default: T): T {
      match this
      case Some(v) => v
      case None => default
    }
  }

  /** A request field for a nullable column. Laravel's validated data holds
      only the fields the request sent, and `ConvertEmptyStringsToNull` turns
      an empty one into null, so a field is left out, sent as null, or sent
      with a value. */
  datatype Field<+T> = Omitted | Null | Sent(value: T) {

    /** The column after the request writes the field over `current`: a sent
        field replaces it (null included), a field left out keeps it. */
    function Onto(current: Option<T>): (r: Option<T>)
      ensures Omitted? ==> r == current
      ensures !Omitted? ==> (r.Some? <==> Sent?)
      ensures Sent? ==> r == Some(value)
    {
      match this
      case Omitted => current
      case Null => None
      case Sent(v) => Some(v)
    }
  }

  /** The outcome of a store operation: the new state, or the reason it was refused. */
  datatype Result<+T, +E> = Ok(value: T) | Err(error: E)

  /** PHP truthiness of a request string, used by `when($x, ...)` and `$x ?: $y`:
      the empty string and "0" are false, every other string is true. */
  predicate Truthy(s: string) {
    s != "" && s != "0"
  }

  /** An optional request string that PHP treats as true. */
  predicate GivenTruthy(s: Option<string>) {
    s.Some? && Truthy(s.value)
  }

  /** Whitespace removed by JavaScript's `String.prototype.trim` (the ASCII part). */
  predicate IsSpace(c: char) {
    c == ' ' || c == '\t' || c == '\n' || c == '\r'
  }

  /** True when a string is empty after trimming. */
  predicate IsBlank(s: string) {
    forall i :: 0 <= i < |s| ==> IsSpace(s[i])
  }
}

=== FILE: dashboard_totals.dfy ===
/** The summary part of `DashboardController::index`: the per-scope totals and
    counts under the dashboard filters, their grand total, the per-year pie
    chart, and the filter dropdowns (departments and years). */
module DashboardTotals {
  import opened Common
  import opened Domain
  import opened Decimal
  import opened Seqs
  import opened Tables
  import opened Text
  import opened Filters
  import opened Store
  import opened Aggregates

  /** The dashboard's request parameters; `None` when absent or empty. The
      dates are taken as already parsed; `year` is the raw request text. The
      scope parameter keeps apart a parameter left out and one sent empty,
      which `ConvertEmptyStringsToNull` turns into null. */
  datatype DashboardFilters = DashboardFilters(
    scope: Field<string>,
    department: Option<string>,
    startDate: Option<Date>,
    endDate: Option<Date>,
    year: Option<string>)

  /** `$request->input('scope', 'all')`: the default only when the parameter
      is left out; an empty one is null. */
  function ScopeParam(f: DashboardFilters): (r: Option<string>)
    ensures f.scope.Omitted? ==> r == Some("all")
    ensures f.scope.Null? ==> r.None?
    ensures f.scope.Sent? ==> r == Some(f.scope.value)
  {
    f.scope.Onto(Some("all"))
  }

  /** A scope has an entry when the scope parameter is `all` or names it. */
  predicate Shown(f: DashboardFilters, s: Scope) {
    ScopeParam(f) == Some("all") || ScopeParam(f) == Some(ScopeName(s))
  }

  /** The record criteria the `when(...)` clauses add: a department only when
      it is truthy, and the supplied date bounds. */
  function Criteria(f: DashboardFilters): RecordFilter {
    RecordFilter(None, if GivenTruthy(f.department) then f.department else None, None, f.startDate, f.endDate)
  }

  /** The records of a scope that the dashboard query selects. */
  function Selected(st: Store, f: DashboardFilters, s: Scope): seq<Row<Emission>> {
    Filter(Emissions(st, s).rows, RowMatcher(st.stakeholders.rows, Criteria(f)))
  }

  /** The selected records are the scope's records that meet the criteria, in
      table order. */
  lemma SelectedRecords(st: Store, f: DashboardFilters, s: Scope)
    ensures forall x :: x in Selected(st, f, s) <==> x in Emissions(st, s).rows && Matches(st.stakeholders.rows, Criteria(f), x.val)
    ensures IsSubsequence(Selected(st, f, s), Emissions(st, s).rows)
  {
  }

  /** A scope's entry in `data`: total in tons and number of records. */
  datatype ScopeSummary = ScopeSummary(total: real, count: nat)

  /** The entry of a scope: present exactly when the scope is shown; the total
      is the selected results over 1000 rounded to two decimals, the count is
      the number of selected records. */
  function Summary(st: Store, f: DashboardFilters, s: Scope): (r: Option<ScopeSummary>)
    ensures r.Some? <==> Shown(f, s)
    ensures r.Some? ==> r.value.count == |Selected(st, f, s)|
    ensures r.Some? ==> IsCents(r.value.total)
    ensures r.Some? ==> -0.005 <= r.value.total - SumResults(Selected(st, f, s)) / 1000.0 <= 0.005
  {
    if Shown(f, s) then
      var rows := Selected(st, f, s);
      Some(ScopeSummary(Round2(SumResults(rows) / 1000.0), |rows|))
    else None
  }

  /** The total of a shown scope, as computed. */
  lemma SummaryTotal(st: Store, f: DashboardFilters, s: Scope)
    requires Shown(f, s)
    ensures Summary(st, f, s).value.total == Round2(SumResults(Selected(st, f, s)) / 1000.0)
  {
  }

  /** What a scope adds to the grand total: its total when it has an entry. */
  function Contribution(st: Store, f: DashboardFilters, s: Scope): real {
    match Summary(st, f, s)
    case None => 0.0
    case Some(e) => e.total
  }

  lemma ContributionCents(st: Store, f: DashboardFilters, s: Scope)
    ensures IsCents(Contribution(st, f, s))
  {
    if !Shown(f, s) {
      CentsZero();
    }
  }

  /** `$grandTotal`: the sum of the totals of the entries that are present. */
  function GrandTotal(st: Store, f: DashboardFilters): (g: real)
    ensures ScopeParam(f) == Some("all") ==>
      g == Summary(st, f, Scope1).value.total + Summary(st, f, Scope2).value.total + Summary(st, f, Scope3).value.total
  {
    Contribution(st, f, Scope1) + Contribution(st, f, Scope2) + Contribution(st, f, Scope3)
  }

  /** The grand total has two decimals. */
  lemma GrandTotalCents(st: Store, f: DashboardFilters)
    ensures IsCents(GrandTotal(st, f))
  {
    var a := Contribution(st, f, Scope1);
    var b := Contribution(st, f, Scope2);
    var c := Contribution(st, f, Scope3);
    ContributionCents(st, f, Scope1);
    ContributionCents(st, f, Scope2);
    ContributionCents(st, f, Scope3);
    CentsAdd(a, b);
    CentsAdd(a + b, c);
  }

  /** A scope parameter naming one scope shows that scope alone. */
  lemma ShownAlone(f: DashboardFilters, s: Scope, o: Scope)
    requires ScopeParam(f) == Some(ScopeName(s))
    ensures Shown(f, o) <==> o == s
  {
    ParseScopeName(s);
    ParseScopeName(o);
  }

  /** With a scope parameter naming one scope, the grand total is that scope's total. */
  lemma GrandTotalOfOneScope(st: Store, f: DashboardFilters, s: Scope)
    requires ScopeParam(f) == Some(ScopeName(s))
    ensures GrandTotal(st, f) == Summary(st, f, s).value.total
  {
    ShownAlone(f, s, Scope1);
    ShownAlone(f, s, Scope2);
    ShownAlone(f, s, Scope3);
  }

  /** Any other scope parameter, an empty one included, shows no entry, and
      the grand total is 0. */
  lemma GrandTotalOfUnknownScope(st: Store, f: DashboardFilters)
    requires ScopeParam(f).None? || (ParseScope(ScopeParam(f).value).None? && ScopeParam(f).value != "all")
    ensures forall s :: Summary(st, f, s).None?
    ensures GrandTotal(st, f) == 0.0
  {
  }

  /** A scope parameter left out shows all three scopes; one sent empty shows
      none. */
  lemma ScopeParamPresence(st: Store, f: DashboardFilters)
    ensures f.scope.Omitted? ==> forall s :: Summary(st, f, s).Some?
    ensures f.scope.Null? ==> forall s :: Summary(st, f, s).None?
  {
  }

  /** The response rounds the grand total once more; that changes nothing,
      since it is a sum of two-decimal values. */
  lemma GrandTotalAlreadyRounded(st: Store, f: DashboardFilters)
    ensures Round2(GrandTotal(st, f)) == GrandTotal(st, f)
  {
    GrandTotalCents(st, f);
    Round2Exact(GrandTotal(st, f));
  }

  /** With no department and no dates the entry covers every record of the scope. */
  lemma UnfilteredSummary(st: Store, f: DashboardFilters, s: Scope)
    requires Shown(f, s) && !GivenTruthy(f.department) && f.startDate.None? && f.endDate.None?
    ensures Summary(st, f, s).value.count == |Emissions(st, s).rows|
    ensures Summary(st, f, s).value.total == Round2(SumResults(Emissions(st, s).rows) / 1000.0)
  {
    var rows := Emissions(st, s).rows;
    forall i | 0 <= i < |rows|
      ensures RowMatcher(st.stakeholders.rows, Criteria(f))(rows[i])
    {
      NoFilterMatchesAll(st.stakeholders.rows, rows[i].val);
    }
    FilterAll(rows, RowMatcher(st.stakeholders.rows, Criteria(f)));
  }

  /** A falsy department parameter (absent, "" or "0") filters nothing. */
  lemma FalsyDepartmentIgnored(f: DashboardFilters)
    requires !GivenTruthy(f.department)
    ensures Criteria(f).department.None?
  {
  }

  /** When no result is negative, the filters can only lower a scope's total:
      it lies between 0 and the rounded total of all the scope's records, which
      is the unfiltered entry (`UnfilteredSummary`). */
  lemma FilteredTotalAtMost(st: Store, f: DashboardFilters, s: Scope)
    requires Shown(f, s) && NonNegative(Emissions(st, s).rows)
    ensures 0.0 <= Summary(st, f, s).value.total <= Round2(SumResults(Emissions(st, s).rows) / 1000.0)
  {
    SelectedSumAtMost(st, f, s);
    SelectedTotalAtMost(st, f, s);
  }

  /** Over non-negative results the selected records sum to at most the whole scope. */
  lemma SelectedSumAtMost(st: Store, f: DashboardFilters, s: Scope)
    requires Shown(f, s) && NonNegative(Emissions(st, s).rows)
    ensures 0.0 <= SumResults(Selected(st, f, s)) <= SumResults(Emissions(st, s).rows)
  {
    SumFilterAtMost(Emissions(st, s).rows, RowMatcher(st.stakeholders.rows, Criteria(f)));
  }
  /** A shown scope's total is bounded by the rounded sum its records are drawn from. */
  lemma SelectedTotalAtMost(st: Store, f: DashboardFilters, s: Scope)
    requires Shown(f, s) && 0.0 <= SumResults(Selected(st, f, s)) <= SumResults(Emissions(st, s).rows)
    ensures 0.0 <= Summary(st, f, s).value.total <= Round2(SumResults(Emissions(st, s).rows) / 1000.0)
  {
    var a := SumResults(Selected(st, f, s));
    var b := SumResults(Emissions(st, s).rows);
    assert Summary(st, f, s).value.total == Round2(a / 1000.0) by {
      SummaryTotal(st, f, s);
    }
    assert 0.0 <= Round2(a / 1000.0) <= Round2(b / 1000.0) by {
      RoundedTonsAtMost(a, b);
    }
  }

  /** Rounded tonnages keep the order of non-negative amounts. */
  lemma RoundedTonsAtMost(a: real, b: real)
    requires 0.0 <= a <= b
    ensures 0.0 <= Round2(a / 1000.0) <= Round2(b / 1000.0)
  {
    Round2Monotone(a / 1000.0, b / 1000.0);
  }

  /** A slice of a chart: a label and a value in tons. */
  datatype Slice = Slice(name: string, value: real)

  /** The label of a scope in the charts. */
  function ScopeLabel(s: Scope): string {
    match s
    case Scope1 => "Scope 1"
    case Scope2 => "Scope 2"
    case Scope3 => "Scope 3"
  }

  /** A scope's slice of the pie: its results measured in the named year, over
      1000, rounded to two decimals. */
  function PieSlice(st: Store, s: Scope, year: string): (r: Slice)
    ensures r.name == ScopeLabel(s)
    ensures IsCents(r.value) && -0.005 <= r.value - YearTextSum(st, s, year) / 1000.0 <= 0.005
    ensures 0.0 < YearTextSum(st, s, year) / 1000.0 ==> YearTextSum(st, s, year) / 1000.0 - r.value < 0.005
    ensures YearTextSum(st, s, year) / 1000.0 < 0.0 ==> r.value - YearTextSum(st, s, year) / 1000.0 < 0.005
  {
    Slice(ScopeLabel(s), Round2(YearTextSum(st, s, year) / 1000.0))
  }

  /** The pie chart: nothing without a truthy `year`; otherwise one slice per
      scope, in scope order. The dashboard filters play no part. */
  function PieChart(st: Store, year: Option<string>): (r: seq<Slice>)
    ensures !GivenTruthy(year) ==> r == []
    ensures GivenTruthy(year) ==> r == [PieSlice(st, Scope1, year.value), PieSlice(st, Scope2, year.value), PieSlice(st, Scope3, year.value)]
  {
    if !GivenTruthy(year) then []
    else [PieSlice(st, Scope1, year.value), PieSlice(st, Scope2, year.value), PieSlice(st, Scope3, year.value)]
  }

  /** A year text that is not a number gives three empty slices. */
  lemma PieOfUnknownYear(st: Store, year: string)
    requires Truthy(year) && ParseYear(year).None?
    ensures PieChart(st, Some(year)) == [Slice("Scope 1", 0.0), Slice("Scope 2", 0.0), Slice("Scope 3", 0.0)]
  {
  }

  /** The non-null departments of some stakeholders, in table order:
      `whereNotNull('department')->pluck('department')`. */
  function NamedDepartments(rows: seq<Row<Stakeholder>>): (ds: seq<string>)
    ensures forall d :: d in ds <==> exists i :: 0 <= i < |rows| && rows[i].val.department == Some(d)
  {
    if |rows| == 0 then []
    else
      var rest := NamedDepartments(rows[1..]);
      assert forall d :: (exists i :: 0 <= i < |rows| && rows[i].val.department == Some(d)) <==>
        rows[0].val.department == Some(d) || exists i :: 0 <= i < |rows[1..]| && rows[1..][i].val.department == Some(d) by {
        forall d, i | 0 < i < |rows| && rows[i].val.department == Some(d)
          ensures rows[1..][i - 1].val.department == Some(d)
        {
        }
      }
      match rows[0].val.department
      case None => rest
      case Some(d) => [d] + rest
  }

  /** `<=` on department names: a total order. */
  lemma StrLeIsTotal()
    ensures Total(StrLe)
  {
    forall a, b
      ensures StrLe(a, b) || StrLe(b, a)
    {
      StrLeTotal(a, b);
    }
  }

  /** The department dropdown: each non-null stakeholder department once, in
      order. */
  function DepartmentOptions(st: Store): (r: seq<string>)
    ensures forall d :: d in r <==> exists i :: 0 <= i < |st.stakeholders.rows| && st.stakeholders.rows[i].val.department == Some(d)
    ensures forall i, j :: 0 <= i < j < |r| ==> r[i] != r[j]
    ensures Sorted(r, StrLe)
  {
    StrLeIsTotal();
    SortedDistinct(NamedDepartments(st.stakeholders.rows), StrLe)
  }

  /** `<=` on years. */
  predicate YearLe(a: int, b: int) {
    a <= b
  }

  /** The years in which some record of any scope was measured. */
  function RecordYears(st: Store): seq<int> {
    YearColumn(st.scope1.rows) + YearColumn(st.scope2.rows) + YearColumn(st.scope3.rows)
  }

  /** The year of each of some records, in order. */
  function YearColumn(rows: seq<Row<Emission>>): (r: seq<int>)
    ensures |r| == |rows|
    ensures forall i :: 0 <= i < |rows| ==> r[i] == rows[i].val.date.year
  {
    seq(|rows|, i requires 0 <= i < |rows| => rows[i].val.date.year)
  }

  /** Some of the records was measured in year `y`. */
  predicate SomeIn(rows: seq<Row<Emission>>, y: int) {
    exists i :: 0 <= i < |rows| && rows[i].val.date.year == y
  }

  /** A year is in the column exactly when some record was measured in it. */
  lemma YearColumnHas(rows: seq<Row<Emission>>, y: int)
    ensures y in YearColumn(rows) <==> SomeIn(rows, y)
  {
    var c := YearColumn(rows);
    if y in c {
      var i :| 0 <= i < |c| && c[i] == y;
      assert rows[i].val.date.year == y;
    }
    if SomeIn(rows, y) {
      var i :| 0 <= i < |rows| && rows[i].val.date.year == y;
      assert c[i] == y;
    }
  }

  /** Some record of some scope was measured in year `y`. */
  predicate HasRecordIn(st: Store, y: int) {
    exists s, i :: 0 <= i < |Emissions(st, s).rows| && Emissions(st, s).rows[i].val.date.year == y
  }

  /** `availableYears`: the distinct years of all records, ascending. */
  function AvailableYears(st: Store): (r: seq<int>)
    ensures forall y :: y in r <==> HasRecordIn(st, y)
    ensures forall i :: 0 < i < |r| ==> r[i - 1] < r[i]
  {
    assert Total(YearLe);
    var r := SortedDistinct(RecordYears(st), YearLe);
    forall y
      ensures y in r <==> HasRecordIn(st, y)
    {
      YearsOfRecords(st, y);
    }
    forall i | 0 < i < |r|
      ensures r[i - 1] < r[i]
    {
      assert YearLe(r[i - 1], r[i]);
    }
    r
  }

  /** The concatenated year list holds exactly the years of the records. */
  lemma YearsOfRecords(st: Store, y: int)
    ensures y in RecordYears(st) <==> HasRecordIn(st, y)
  {
    YearColumnHas(st.scope1.rows, y);
    YearColumnHas(st.scope2.rows, y);
    YearColumnHas(st.scope3.rows, y);
    assert HasRecordIn(st, y) <==> SomeIn(st.scope1.rows, y) || SomeIn(st.scope2.rows, y) || SomeIn(st.scope3.rows, y) by {
      if HasRecordIn(st, y) {
        var s, i :| 0 <= i < |Emissions(st, s).rows| && Emissions(st, s).rows[i].val.date.year == y;
        assert SomeIn(Emissions(st, s).rows, y);
      }
      if SomeIn(st.scope1.rows, y) {
        assert Emissions(st, Scope1) == st.scope1;
        var i :| 0 <= i < |st.scope1.rows| && st.scope1.rows[i].val.date.year == y;
        assert Emissions(st, Scope1).rows[i].val.date.year == y;
      }
      if SomeIn(st.scope2.rows, y) {
        assert Emissions(st, Scope2) == st.scope2;
        var i :| 0 <= i < |st.scope2.rows| && st.scope2.rows[i].val.date.year == y;
        assert Emissions(st, Scope2).rows[i].val.date.year == y;
      }
      if SomeIn(st.scope3.rows, y) {
        assert Emissions(st, Scope3) == st.scope3;
        var i :| 0 <= i < |st.scope3.rows| && st.scope3.rows[i].val.date.year == y;
        assert Emissions(st, Scope3).rows[i].val.date.year == y;
      }
    }
  }
}

=== FILE: decimal.dfy ===
/** Exact decimal arithmetic on `real`, and PHP's `round($x, 2)`. */
module Decimal {

  /** The value of `k` hundredths. */
  function Hundredths(k: int): real {
    k as real / 100.0
  }

  /** A value with at most two decimal places: a whole number of hundredths. */
  ghost predicate IsCents(x: real) {
    exists k: int :: Hundredths(k) == x
  }

  /** `round($x, 2)`: the nearest value with two decimals, halves rounded away from zero. */
  function Round2(x: real): (r: real)
    ensures IsCents(r)
    ensures -0.005 <= r - x <= 0.005
    ensures 0.0 <= x ==> 0.0 <= r
    ensures x <= 0.0 ==> r <= 0.0
    ensures 0.0 < x ==> x - r < 0.005
    ensures x < 0.0 ==> r - x < 0.005
  {
    if x >= 0.0 then
      Hundredths((x * 100.0 + 0.5).Floor)
    else
      Hundredths(-((-x) * 100.0 + 0.5).Floor)
  }

  /** Flooring is monotone. */
  lemma FloorMonotone(a: real, b: real)
    requires a <= b
    ensures a.Floor <= b.Floor
  {
  }

  /** Rounding is monotone: it never reverses the order of two amounts. */
  lemma Round2Monotone(x: real, y: real)
    requires x <= y
    ensures Round2(x) <= Round2(y)
  {
    if 0.0 <= x {
      FloorMonotone(x * 100.0 + 0.5, y * 100.0 + 0.5);
    } else if y < 0.0 {
      FloorMonotone((-y) * 100.0 + 0.5, (-x) * 100.0 + 0.5);
    }
  }

  /** A value that already has two decimals is left unchanged by rounding. */
  lemma Round2Exact(x: real)
    requires IsCents(x)
    ensures Round2(x) == x
  {
    var n :| Hundredths(n) == x;
    if x >= 0.0 {
      assert x * 100.0 + 0.5 == n as real + 0.5;
      assert (x * 100.0 + 0.5).Floor == n;
    } else {
      assert (-x) * 100.0 + 0.5 == (-n) as real + 0.5;
      assert ((-x) * 100.0 + 0.5).Floor == -n;
    }
  }

  /** Sums of two-decimal values have two decimals. */
  lemma CentsAdd(x: real, y: real)
    requires IsCents(x) && IsCents(y)
    ensures IsCents(x + y)
  {
    var a :| Hundredths(a) == x;
    var b :| Hundredths(b) == y;
    assert Hundredths(a + b) == x + y;
  }

  /** Zero is a two-decimal value. */
  lemma CentsZero()
    ensures IsCents(0.0)
  {
    assert Hundredths(0) == 0.0;
  }

  /** A positive value exactly halfway between two hundredths rounds up. */
  lemma Round2TieUp(k: nat)
    ensures Round2(Hundredths(k) + 0.005) == Hundredths(k + 1)
  {
    var x := Hundredths(k) + 0.005;
    var y := x * 100.0 + 0.5;
    assert y == (k + 1) as real;
    assert y.Floor == k + 1;
  }

  /** A negative value exactly halfway between two hundredths rounds down. */
  lemma Round2TieDown(k: nat)
    ensures Round2(-(Hundredths(k) + 0.005)) == -Hundredths(k + 1)
  {
    var x := Hundredths(k) + 0.005;
    var y := (-(-x)) * 100.0 + 0.5;
    assert y == (k + 1) as real;
    assert y.Floor == k + 1;
    assert Hundredths(-(k + 1)) == -Hundredths(k + 1);
  }

  /** Halves round away from zero: a value exactly halfway between two
      hundredths, on either side of zero, rounds to the one further from zero. */
  lemma Round2HalfAwayFromZero(k: nat)
    ensures Round2(Hundredths(k) + 0.005) == Hundredths(k + 1)
    ensures Round2(-(Hundredths(k) + 0.005)) == -Hundredths(k + 1)
  {
    Round2TieUp(k);
    Round2TieDown(k);
  }

  /** Concrete cases: 0.005 and -0.005 round away from zero, 0.004 to 0. */
  lemma Round2Examples()
    ensures Round2(0.005) == 0.01
    ensures Round2(-0.005) == -0.01
    ensures Round2(0.125) == 0.13
    ensures Round2(0.004) == 0.0
  {
    assert (0.005 * 100.0 + 0.5).Floor == 1;
    assert (0.125 * 100.0 + 0.5).Floor == 13;
    assert (0.004 * 100.0 + 0.5).Floor == 0;
  }
}

=== FILE: domain.dfy ===
/** The entities of the application: emission factors, stakeholders and the
    emission records of the three reporting scopes. */
module Domain {
  import opened Common

  /** A calendar date, compared as a (year, month, day) tuple. */
  datatype Date = Date(year: int, month: int, day: int)

  /** `a` is on or before `b`. */
  predicate DateLe(a: Date, b: Date) {
    a.year < b.year
    || (a.year == b.year && (a.month < b.month || (a.month == b.month && a.day <= b.day)))
  }

  lemma DateLeTotal(a: Date, b: Date)
    ensures DateLe(a, b) || DateLe(b, a)
  {
  }

  lemma DateLeTransitive(a: Date, b: Date, c: Date)
    requires DateLe(a, b) && DateLe(b, c)
    ensures DateLe(a, c)
  {
  }

  /** Gregorian leap years. */
  predicate IsLeapYear(y: int) {
    y % 4 == 0 && (y % 100 != 0 || y % 400 == 0)
  }

  function DaysInMonth(y: int, m: int): (n: int)
    requires 1 <= m <= 12
    ensures 28 <= n <= 31
  {
    if m == 2 then (if IsLeapYear(y) then 29 else 28)
    else if m == 4 || m == 6 || m == 9 || m == 11 then 30
    else 31
  }

  /** The number of days in months 1 to `m` of year `y`. */
  function DaysBefore(y: int, m: int): int
    requires 0 <= m <= 12
  {
    if m == 0 then 0 else DaysBefore(y, m - 1) + DaysInMonth(y, m)
  }

  /** The month lengths make up the Gregorian year: 366 days in a leap year
      and 365 otherwise, with February the only month whose length depends on
      the year, and the long months exactly January, March, May, July, August,
      October and December. */
  lemma MonthLengths(y: int, z: int, m: int)
    requires 1 <= m <= 12
    ensures DaysBefore(y, 12) == if IsLeapYear(y) then 366 else 365
    ensures m != 2 ==> DaysInMonth(y, m) == DaysInMonth(z, m)
    ensures DaysInMonth(y, m) == 31 <==> m in {1, 3, 5, 7, 8, 10, 12}
    ensures DaysInMonth(y, 2) == if IsLeapYear(y) then 29 else 28
  {
    var feb := DaysInMonth(y, 2);
    assert DaysBefore(y, 1) == 31;
    assert DaysBefore(y, 2) == 31 + feb;
    assert DaysBefore(y, 3) == 62 + feb;
    assert DaysBefore(y, 4) == 92 + feb;
    assert DaysBefore(y, 5) == 123 + feb;
    assert DaysBefore(y, 6) == 153 + feb;
    assert DaysBefore(y, 7) == 184 + feb;
    assert DaysBefore(y, 8) == 215 + feb;
    assert DaysBefore(y, 9) == 245 + feb;
    assert DaysBefore(y, 10) == 276 + feb;
    assert DaysBefore(y, 11) == 306 + feb;
    assert DaysBefore(y, 12) == 337 + feb;
  }

  /** A date that the `date` validation rule accepts. */
  predicate ValidDate(d: Date) {
    1 <= d.month <= 12 && 1 <= d.day <= DaysInMonth(d.year, d.month)
  }

  /** The three reporting scopes. */
  datatype Scope = Scope1 | Scope2 | Scope3

  /** The value stored in the `scope` column of an emission factor. */
  function ScopeName(s: Scope): string {
    match s
    case Scope1 => "scope_1"
    case Scope2 => "scope_2"
    case Scope3 => "scope_3"
  }

  /** The `in:scope_1,scope_2,scope_3` validation rule. */
  function ParseScope(name: string): (r: Option<Scope>)
    ensures r.Some? <==> name == "scope_1" || name == "scope_2" || name == "scope_3"
    ensures r.Some? ==> ScopeName(r.value) == name
  {
    if name == "scope_1" then Some(Scope1)
    else if name == "scope_2" then Some(Scope2)
    else if name == "scope_3" then Some(Scope3)
    else None
  }

  /** Parsing inverts naming. */
  lemma ParseScopeName(s: Scope)
    ensures ParseScope(ScopeName(s)) == Some(s)
  {
  }

  /** The position of a scope in the ordering of its name. */
  function ScopeRank(s: Scope): nat {
    match s
    case Scope1 => 1
    case Scope2 => 2
    case Scope3 => 3
  }

  /** An emission factor: the mass of CO2-equivalent per unit of activity. */
  datatype EmissionFactor = EmissionFactor(
    name: string,
    scope: Scope,
    category: Option<string>,
    factor: real,
    unit: string,
    description: Option<string>,
    source: Option<string>,
    isActive: bool)

  /** A person or unit to which emission records are attributed. */
  datatype Stakeholder = Stakeholder(
    name: string,
    email: string,
    position: Option<string>,
    department: Option<string>,
    receiveAlerts: bool)

  /** The scope-specific part of an emission record: Scope 2 carries the
      renewable-energy-certificate amount, Scope 3 a reporting category. */
  datatype Detail = Direct | Energy(rec: real) | ValueChain(category: string)

  /** The scope a record with this detail belongs to. */
  function DetailScope(d: Detail): Scope {
    match d
    case Direct => Scope1
    case Energy(_) => Scope2
    case ValueChain(_) => Scope3
  }

  /** An emission record of any scope; `result` is the cached computed emission. */
  datatype Emission = Emission(
    factorId: nat,
    stakeholderId: Option<nat>,
    date: Date,
    activity: real,
    activityUnit: string,
    result: real,
    location: Option<string>,
    notes: Option<string>,
    detail: Detail)

  /** A stored row: an auto-increment id and the row's fields. */
  datatype Row<T> = Row(id: nat, val: T)
}

=== FILE: emission_factors.dfy ===
/** The emission factor catalogue: the `active` and `byScope` query scopes of
    the `EmissionFactor` model and the `EmissionFactorController` that lists,
    creates, updates and deletes factors. */
module EmissionFactors {
  import opened Common
  import opened Domain
  import opened Seqs
  import opened Tables
  import opened Text
  import opened Calculator
  import opened Store

  /** The `active` query scope: factors whose `is_active` flag is set. */
  function Active(rows: seq<Row<EmissionFactor>>): (r: seq<Row<EmissionFactor>>)
    ensures forall x :: x in r <==> x in rows && x.val.isActive
    ensures IsSubsequence(r, rows)
  {
    Filter(rows, (x: Row<EmissionFactor>) => x.val.isActive)
  }

  /** The condition of `byScope($name)`: the stored scope column equals `name`. */
  function InScope(name: string): Row<EmissionFactor> -> bool {
    (x: Row<EmissionFactor>) => ScopeName(x.val.scope) == name
  }

  /** The `byScope` query scope. Any string may be passed; only the three scope
      names can match a stored factor. */
  function ByScope(rows: seq<Row<EmissionFactor>>, name: string): (r: seq<Row<EmissionFactor>>)
    ensures forall x :: x in r <==> x in rows && ScopeName(x.val.scope) == name
    ensures ParseScope(name).None? ==> r == []
    ensures IsSubsequence(r, rows)
  {
    Filter(rows, InScope(name))
  }

  /** Applying `byScope` twice with the same name is applying it once. */
  lemma ByScopeIdempotent(rows: seq<Row<EmissionFactor>>, name: string)
    ensures ByScope(ByScope(rows, name), name) == ByScope(rows, name)
  {
    FilterIdempotent(rows, InScope(name));
  }

  /** `active()->byScope(s)` and `byScope(s)->active()` select the same rows in
      the same order. */
  lemma ActiveByScopeCommute(rows: seq<Row<EmissionFactor>>, name: string)
    ensures Active(ByScope(rows, name)) == ByScope(Active(rows), name)
  {
    FilterCommutes(rows, InScope(name), (x: Row<EmissionFactor>) => x.val.isActive);
  }

  /** Every factor is in exactly one scope: the three `byScope` selections
      together have as many rows as the catalogue. */
  lemma {:induction false} ScopesPartition(rows: seq<Row<EmissionFactor>>)
    ensures |ByScope(rows, "scope_1")| + |ByScope(rows, "scope_2")| + |ByScope(rows, "scope_3")| == |rows|
  {
    if |rows| > 0 {
      ScopesPartition(rows[1..]);
      var n1 := |Filter(rows[1..], InScope("scope_1"))|;
      var n2 := |Filter(rows[1..], InScope("scope_2"))|;
      var n3 := |Filter(rows[1..], InScope("scope_3"))|;
      FilterCons(rows, InScope("scope_1"));
      FilterCons(rows, InScope("scope_2"));
      FilterCons(rows, InScope("scope_3"));
      match rows[0].val.scope
      case Scope1 =>
        assert |ByScope(rows, "scope_1")| == n1 + 1;
        assert |ByScope(rows, "scope_2")| == n2;
        assert |ByScope(rows, "scope_3")| == n3;
      case Scope2 =>
        assert |ByScope(rows, "scope_1")| == n1;
        assert |ByScope(rows, "scope_2")| == n2 + 1;
        assert |ByScope(rows, "scope_3")| == n3;
      case Scope3 =>
        assert |ByScope(rows, "scope_1")| == n1;
        assert |ByScope(rows, "scope_2")| == n2;
        assert |ByScope(rows, "scope_3")| == n3 + 1;
    }
  }

  /** The factors offered on a scope's record forms: active, of that scope,
      by name. */
  function Choices(st: Store, scope: Scope): (r: seq<Row<EmissionFactor>>)
    ensures forall x :: x in r <==> x in st.factors.rows && x.val.isActive && x.val.scope == scope
    ensures multiset(r) <= multiset(st.factors.rows)
    ensures Sorted(r, ByName)
  {
    ByNameTotal();
    var active := Active(st.factors.rows);
    var rows := ByScope(active, ScopeName(scope));
    var r := Sort(rows, ByName);
    assert multiset(rows) <= multiset(st.factors.rows) by {
      FilterStronger(st.factors.rows, (x: Row<EmissionFactor>) => x.val.isActive, (x: Row<EmissionFactor>) => true);
      FilterAll(st.factors.rows, (x: Row<EmissionFactor>) => true);
      FilterStronger(active, InScope(ScopeName(scope)), (x: Row<EmissionFactor>) => true);
      FilterAll(active, (x: Row<EmissionFactor>) => true);
    }
    assert forall x :: x in r <==> x in rows by {
      forall x
        ensures x in r <==> x in rows
      {
        assert x in r <==> multiset(r)[x] > 0;
        assert x in rows <==> multiset(rows)[x] > 0;
      }
    }
    forall x | x in rows
      ensures x.val.scope == scope
    {
      ParseScopeName(x.val.scope);
      ParseScopeName(scope);
    }
    r
  }

  /** `orderBy('name')`. */
  predicate ByName(a: Row<EmissionFactor>, b: Row<EmissionFactor>) {
    StrLe(a.val.name, b.val.name)
  }

  lemma ByNameTotal()
    ensures Total(ByName)
  {
    forall a, b
      ensures ByName(a, b) || ByName(b, a)
    {
      StrLeTotal(a.val.name, b.val.name);
    }
  }

  /** `orderBy('scope')->orderBy('name')`: the stored scope name first, the
      factor name breaking ties. */
  predicate ByScopeThenName(a: Row<EmissionFactor>, b: Row<EmissionFactor>) {
    var sa := ScopeName(a.val.scope);
    var sb := ScopeName(b.val.scope);
    || (sa != sb && StrLe(sa, sb))
    || (sa == sb && StrLe(a.val.name, b.val.name))
  }

  lemma ByScopeThenNameTotal()
    ensures Total(ByScopeThenName)
  {
    forall a, b
      ensures ByScopeThenName(a, b) || ByScopeThenName(b, a)
    {
      StrLeTotal(ScopeName(a.val.scope), ScopeName(b.val.scope));
      StrLeTotal(a.val.name, b.val.name);
    }
  }

  /** `index`: a truthy `scope` parameter restricts the listing to that scope
      column value; the rows come ordered by scope, then name. */
  function Index(st: Store, scope: Option<string>): (r: seq<Row<EmissionFactor>>)
    ensures forall x :: x in r <==>
      x in st.factors.rows && (GivenTruthy(scope) ==> ScopeName(x.val.scope) == scope.value)
    ensures multiset(r) <= multiset(st.factors.rows)
    ensures Sorted(r, ByScopeThenName)
  {
    ByScopeThenNameTotal();
    var rows := if GivenTruthy(scope) then ByScope(st.factors.rows, scope.value) else st.factors.rows;
    var r := Sort(rows, ByScopeThenName);
    assert multiset(rows) <= multiset(st.factors.rows) by {
      if GivenTruthy(scope) {
        FilterStronger(st.factors.rows, InScope(scope.value), (x: Row<EmissionFactor>) => true);
        FilterAll(st.factors.rows, (x: Row<EmissionFactor>) => true);
      }
    }
    assert forall x :: x in r <==> x in rows by {
      forall x
        ensures x in r <==> x in rows
      {
        assert x in r <==> multiset(r)[x] > 0;
        assert x in rows <==> multiset(rows)[x] > 0;
      }
    }
    r
  }

  /** Without a truthy scope parameter the listing is the whole catalogue. */
  lemma IndexUnfiltered(st: Store, scope: Option<string>)
    requires !GivenTruthy(scope)
    ensures multiset(Index(st, scope)) == multiset(st.factors.rows)
  {
  }

  /** The submitted form of a factor; `isActive` is None when the request has
      no `is_active` field. */
  datatype FactorInput = FactorInput(
    name: string,
    scope: string,
    category: Field<string>,
    factor: real,
    unit: string,
    description: Field<string>,
    source: Field<string>,
    isActive: Option<bool>)

  /** The validation rules of `store` and `update`. */
  predicate FactorAcceptable(input: FactorInput) {
    && 0 < |input.name| <= 255
    && ParseScope(input.scope).Some?
    && (input.category.Sent? ==> |input.category.value| <= 255)
    && input.factor >= 0.0
    && 0 < |input.unit| <= 50
    && (input.source.Sent? ==> |input.source.value| <= 255)
  }

  /** Checks the rules in the order they are listed and names the first field
      that fails; on success yields the parsed scope. */
  function ValidateFactor(input: FactorInput): (r: Result<Scope, Error>)
    ensures r.Ok? <==> FactorAcceptable(input)
    ensures r.Err? ==> r.error.Invalid?
    ensures r.Ok? ==> ScopeName(r.value) == input.scope
  {
    if !(0 < |input.name| <= 255) then Err(Invalid("name"))
    else if ParseScope(input.scope).None? then Err(Invalid("scope"))
    else if input.category.Sent? && |input.category.value| > 255 then Err(Invalid("category"))
    else if input.factor < 0.0 then Err(Invalid("factor"))
    else if !(0 < |input.unit| <= 50) then Err(Invalid("unit"))
    else if input.source.Sent? && |input.source.value| > 255 then Err(Invalid("source"))
    else Ok(ParseScope(input.scope).value)
  }

  /** `f` is what the submission makes of a row that held `was` (all but the
      active flag): the required fields as submitted, and each nullable field
      as submitted when sent, null when sent empty, and kept when left out. */
  predicate Described(f: EmissionFactor, input: FactorInput, was: EmissionFactor) {
    && f.name == input.name
    && ScopeName(f.scope) == input.scope
    && f.factor == input.factor
    && f.unit == input.unit
    && (if input.category.Omitted? then f.category == was.category
        else f.category == (if input.category.Sent? then Some(input.category.value) else None))
    && (if input.description.Omitted? then f.description == was.description
        else f.description == (if input.description.Sent? then Some(input.description.value) else None))
    && (if input.source.Omitted? then f.source == was.source
        else f.source == (if input.source.Sent? then Some(input.source.value) else None))
  }

  /** The factor a submission writes over `was`; a missing active flag is kept. */
  function WriteOver(input: FactorInput, scope: Scope, was: EmissionFactor): EmissionFactor {
    EmissionFactor(input.name, scope, input.category.Onto(was.category), input.factor, input.unit,
                   input.description.Onto(was.description), input.source.Onto(was.source),
                   input.isActive.GetOr(was.isActive))
  }

  /** A new catalogue row before a submission is written to it: the nullable
      columns null and the factor active, the column default. Only those
      columns are read. */
  function Blank(scope: Scope): EmissionFactor {
    EmissionFactor("", scope, None, 0.0, "", None, None, true)
  }

  /** `store`: appends the validated factor under the next id. A request
      without `is_active` gets the column default, active. */
  function Create(st: Store, input: FactorInput): (r: Result<Store, Error>)
    ensures r.Ok? <==> FactorAcceptable(input)
    ensures r.Err? ==> r.error.Invalid?
    ensures r.Ok? ==>
      var t := st.factors;
      var t' := r.value.factors;
      && |t'.rows| == |t.rows| + 1
      && t'.rows[..|t.rows|] == t.rows
      && t'.rows[|t.rows|].id == t.nextId
      && t'.nextId == t.nextId + 1
      && Described(t'.rows[|t.rows|].val, input, Blank(t'.rows[|t.rows|].val.scope))
      && (t'.rows[|t.rows|].val.isActive <==> input.isActive != Some(false))
    ensures r.Ok? ==> r.value == st.(factors := r.value.factors)
  {
    match ValidateFactor(input)
    case Err(e) => Err(e)
    case Ok(scope) =>
      var t := Insert(st.factors, WriteOver(input, scope, Blank(scope)));
      assert t.rows[..|st.factors.rows|] == st.factors.rows;
      Ok(st.(factors := t))
  }

  /** `update`: writes the submitted fields over an existing factor; the
      fields the request leaves out, `is_active` included, keep their values. The records that use the factor are
      not touched: their cached results keep the old factor value. */
  function Update(st: Store, id: nat, input: FactorInput): (r: Result<Store, Error>)
    ensures Lookup(st.factors.rows, id).None? ==> r == Err(NotFound)
    ensures Lookup(st.factors.rows, id).Some? ==> (r.Ok? <==> FactorAcceptable(input))
    ensures r.Err? && r != Err(NotFound) ==> r.error.Invalid?
    ensures r.Ok? ==> Lookup(r.value.factors.rows, id).Some?
    ensures r.Ok? ==>
      var f := Lookup(r.value.factors.rows, id).value;
      && Described(f, input, Lookup(st.factors.rows, id).value)
      && f.isActive == input.isActive.GetOr(Lookup(st.factors.rows, id).value.isActive)
    ensures r.Ok? ==> forall k :: k != id ==> Lookup(r.value.factors.rows, k) == Lookup(st.factors.rows, k)
    ensures r.Ok? ==> r.value == st.(factors := r.value.factors) && r.value.factors.nextId == st.factors.nextId
  {
    match Lookup(st.factors.rows, id)
    case None => Err(NotFound)
    case Some(current) =>
      match ValidateFactor(input)
      case Err(e) => Err(e)
      case Ok(scope) =>
        var f := WriteOver(input, scope, current);
        var rows := Replace(st.factors.rows, id, f);
        ReplaceLookup(st.factors.rows, id, f, id);
        assert forall k :: k != id ==> Lookup(rows, k) == Lookup(st.factors.rows, k) by {
          forall k | k != id
            ensures Lookup(rows, k) == Lookup(st.factors.rows, k)
          {
            ReplaceLookup(st.factors.rows, id, f, k);
          }
        }
        Ok(st.(factors := Table(rows, st.factors.nextId)))
  }

  /** The catalogue rows other than factor `id`. */
  function OtherThan(id: nat): Row<EmissionFactor> -> bool {
    (x: Row<EmissionFactor>) => x.id != id
  }

  /** The rows of a record table that do not reference factor `id`. */
  function Unreferencing(id: nat): Row<Emission> -> bool {
    (x: Row<Emission>) => x.val.factorId != id
  }

  /** The database after factor `id` is deleted: the `cascadeOnDelete`
      foreign keys delete every record of every scope that references it. */
  function Cascade(st: Store, id: nat): Store {
    Store(
      Retain(st.factors, OtherThan(id)),
      st.stakeholders,
      Retain(st.scope1, Unreferencing(id)),
      Retain(st.scope2, Unreferencing(id)),
      Retain(st.scope3, Unreferencing(id)))
  }

  /** `destroy`: deletes an existing factor together with its records. */
  function Destroy(st: Store, id: nat): (r: Result<Store, Error>)
    ensures Lookup(st.factors.rows, id).None? <==> r == Err(NotFound)
    ensures r.Ok? <==> Lookup(st.factors.rows, id).Some?
    ensures r.Ok? ==> r.value == Cascade(st, id)
  {
    if Lookup(st.factors.rows, id).None? then Err(NotFound) else Ok(Cascade(st, id))
  }

  /** The deletion removes exactly the factor, and from each scope exactly the
      records that reference it; the stakeholders and the id counters stay. */
  lemma CascadeContents(st: Store, id: nat, s: Scope)
    ensures forall x :: x in Cascade(st, id).factors.rows <==> x in st.factors.rows && x.id != id
    ensures forall x :: x in Emissions(Cascade(st, id), s).rows <==> x in Emissions(st, s).rows && x.val.factorId != id
    ensures Cascade(st, id).stakeholders == st.stakeholders
    ensures Cascade(st, id).factors.nextId == st.factors.nextId
    ensures Emissions(Cascade(st, id), s).nextId == Emissions(st, s).nextId
  {
    assert Emissions(Cascade(st, id), s) == Retain(Emissions(st, s), Unreferencing(id));
  }

  /** Creating a factor keeps the database invariant and every cached result. */
  lemma CreatePreserves(st: Store, input: FactorInput)
    requires Valid(st) && Create(st, input).Ok?
    ensures Valid(Create(st, input).value)
    ensures CacheConsistent(st) ==> CacheConsistent(Create(st, input).value)
  {
    var st' := Create(st, input).value;
    assert forall s :: Emissions(st', s) == Emissions(st, s);
    forall s, i | 0 <= i < |Emissions(st', s).rows|
      ensures RecordValid(st', s, Emissions(st', s).rows[i].val)
      ensures CacheConsistent(st) ==> Consistent(st', s, Emissions(st', s).rows[i].val)
    {
      var e := Emissions(st', s).rows[i].val;
      assert RecordValid(st, s, e);
      var fid := e.factorId;
      LookupSpec(st.factors.rows, fid);
      var k :| 0 <= k < |st.factors.rows| && st.factors.rows[k] == Row(fid, FactorOf(st, e).value);
      LookupUnique(st'.factors, k);
      LookupUnique(st.factors, k);
    }
  }

  /** Updating a factor keeps the database invariant: every record still
      references an existing factor. */
  lemma UpdatePreservesValid(st: Store, id: nat, input: FactorInput)
    requires Valid(st) && Update(st, id, input).Ok?
    ensures Valid(Update(st, id, input).value)
  {
    var st' := Update(st, id, input).value;
    assert forall s :: Emissions(st', s) == Emissions(st, s);
    ReplaceWellFormed(st.factors, id, Lookup(st'.factors.rows, id).value);
    forall s, i | 0 <= i < |Emissions(st', s).rows|
      ensures RecordValid(st', s, Emissions(st', s).rows[i].val)
    {
      assert RecordValid(st, s, Emissions(st, s).rows[i].val);
    }
  }

  /** An update that keeps the factor value keeps every cached result current. */
  lemma UpdateSameValueKeepsCache(st: Store, id: nat, input: FactorInput)
    requires CacheConsistent(st) && Update(st, id, input).Ok?
    requires input.factor == Lookup(st.factors.rows, id).value.factor
    ensures CacheConsistent(Update(st, id, input).value)
  {
    var st' := Update(st, id, input).value;
    assert forall s :: Emissions(st', s) == Emissions(st, s);
    forall s, i | 0 <= i < |Emissions(st', s).rows|
      ensures Consistent(st', s, Emissions(st', s).rows[i].val)
    {
      var e := Emissions(st', s).rows[i].val;
      assert Consistent(st, s, e);
      if e.factorId == id {
        OnlyInputsMatter(e, e, Lookup(st.factors.rows, id).value, Lookup(st'.factors.rows, id).value);
      }
    }
  }

  /** A database with one Scope 1 factor of 1 kg per litre and one record of
      1000 litres whose cached result, 1 ton, is up to date. */
  function SolarStore(): Store {
    var fuel := EmissionFactor("Solar", Scope1, None, 1.0, "kgCO2e/L", None, None, true);
    var rec := Emission(1, None, Date(2024, 1, 1), 1000.0, "L", 1.0, None, None, Direct);
    Store(Table([Row(1, fuel)], 2), Table([], 1), Table([Row(1, rec)], 2), Table([], 1), Table([], 1))
  }

  /** The same factor, doubled. */
  function DoubledSolar(): FactorInput {
    FactorInput("Solar", "scope_1", Omitted, 2.0, "kgCO2e/L", Omitted, Omitted, None)
  }

  /** The example database is valid and its cached result is up to date. */
  lemma SolarStoreSound()
    ensures Valid(SolarStore()) && CacheConsistent(SolarStore())
  {
    var st := SolarStore();
    assert Emissions(st, Scope1) == st.scope1;
    assert Emissions(st, Scope2) == st.scope2;
    assert Emissions(st, Scope3) == st.scope3;
    assert Consistent(st, Scope1, st.scope1.rows[0].val);
  }

  /** Editing a factor does not recompute the results cached from it: doubling
      the factor of the example leaves its record's result stale. */
  lemma UpdateLeavesStaleResults()
    ensures Valid(SolarStore()) && CacheConsistent(SolarStore())
    ensures Update(SolarStore(), 1, DoubledSolar()).Ok?
    ensures !CacheConsistent(Update(SolarStore(), 1, DoubledSolar()).value)
  {
    SolarStoreSound();
    var st' := Update(SolarStore(), 1, DoubledSolar()).value;
    assert Emissions(st', Scope1).rows[0].val == SolarStore().scope1.rows[0].val;
    assert !Consistent(st', Scope1, SolarStore().scope1.rows[0].val);
  }

  /** A record that survives the deletion still finds its factor, unchanged. */
  lemma CascadeKeepsFactorOf(st: Store, id: nat, e: Emission)
    requires WellFormed(st.factors)
    requires FactorOf(st, e).Some? && e.factorId != id
    ensures FactorOf(Cascade(st, id), e) == FactorOf(st, e)
  {
    RetainLookup(st.factors, OtherThan(id), e.factorId);
  }

  /** A record that survives the deletion stays valid and keeps its cache status. */
  lemma CascadeKeepsRecord(st: Store, id: nat, s: Scope, x: Row<Emission>)
    requires Valid(st) && x in Emissions(Cascade(st, id), s).rows
    ensures RecordValid(Cascade(st, id), s, x.val)
    ensures CacheConsistent(st) ==> Consistent(Cascade(st, id), s, x.val)
  {
    assert Emissions(Cascade(st, id), s) == Retain(Emissions(st, s), Unreferencing(id));
    assert x in Emissions(st, s).rows;
    var j :| 0 <= j < |Emissions(st, s).rows| && Emissions(st, s).rows[j] == x;
    assert RecordValid(st, s, x.val);
    assert CacheConsistent(st) ==> Consistent(st, s, x.val);
    CascadeKeepsFactorOf(st, id, x.val);
  }

  /** Every record that survives the deletion stays valid, and stays current
      when it was. */
  lemma CascadeKeepsRecords(st: Store, id: nat)
    requires Valid(st)
    ensures forall s, i :: 0 <= i < |Emissions(Cascade(st, id), s).rows| ==>
      RecordValid(Cascade(st, id), s, Emissions(Cascade(st, id), s).rows[i].val)
    ensures CacheConsistent(st) ==> CacheConsistent(Cascade(st, id))
  {
    var st' := Cascade(st, id);
    forall s, i | 0 <= i < |Emissions(st', s).rows|
      ensures RecordValid(st', s, Emissions(st', s).rows[i].val)
      ensures CacheConsistent(st) ==> Consistent(st', s, Emissions(st', s).rows[i].val)
    {
      var x := Emissions(st', s).rows[i];
      assert x in Emissions(st', s).rows;
      CascadeKeepsRecord(st, id, s, x);
    }
  }

  /** Deleting a factor with its records keeps the database invariant and every
      cached result. */
  lemma DestroyPreserves(st: Store, id: nat)
    requires Valid(st)
    ensures Valid(Cascade(st, id))
    ensures CacheConsistent(st) ==> CacheConsistent(Cascade(st, id))
  {
    var st' := Cascade(st, id);
    assert WellFormed(st.scope1) && WellFormed(st.scope2) && WellFormed(st.scope3) by {
      assert Emissions(st, Scope1) == st.scope1;
      assert Emissions(st, Scope2) == st.scope2;
      assert Emissions(st, Scope3) == st.scope3;
    }
    assert WellFormed(st'.factors) && WellFormed(st'.scope1) && WellFormed(st'.scope2) && WellFormed(st'.scope3);
    forall s
      ensures WellFormed(Emissions(st', s))
    {
      match s
      case Scope1 => assert Emissions(st', s) == st'.scope1;
      case Scope2 => assert Emissions(st', s) == st'.scope2;
      case Scope3 => assert Emissions(st', s) == st'.scope3;
    }
    CascadeKeepsRecords(st, id);
  }

  /** After the deletion no record references the factor. */
  lemma DestroyLeavesNoReference(st: Store, id: nat, s: Scope, x: Row<Emission>)
    requires Destroy(st, id).Ok? && x in Emissions(Destroy(st, id).value, s).rows
    ensures x.val.factorId != id
  {
    CascadeContents(st, id, s);
  }
}

=== FILE: emission_records.dfy ===
/** The three emission record controllers (`Scope1EmissionController`,
    `Scope2EmissionController`, `Scope3EmissionController`): validated create
    and update that recompute the cached result, delete, and the filtered
    listing newest first. */
module EmissionRecords {
  import opened Common
  import opened Domain
  import opened Decimal
  import opened Seqs
  import opened Tables
  import opened Calculator
  import opened Filters
  import opened Store

  /** The submitted form of a record. `rec` is only read by Scope 2, which
      stores a missing or null value as 0, and `category` only by Scope 3,
      which requires it. */
  datatype EmissionInput = EmissionInput(
    factorId: nat,
    stakeholderId: Field<nat>,
    date: Date,
    activity: real,
    activityUnit: string,
    rec: Option<real>,
    category: Option<string>,
    location: Field<string>,
    notes: Field<string>)

  /** The nullable columns of a record: stakeholder, location and notes. */
  datatype Nullables = Nullables(stakeholderId: Option<nat>, location: Option<string>, notes: Option<string>)

  /** The nullable columns of a stored record. */
  function NullablesOf(e: Emission): Nullables {
    Nullables(e.stakeholderId, e.location, e.notes)
  }

  /** The nullable columns of a new row before a submission is written to
      it: all null, the column default. */
  const Unset: Nullables := Nullables(None, None, None)

  /** A `required|string|max:n` field. */
  predicate RequiredText(s: string, max: nat) {
    0 < |s| <= max
  }

  /** A `nullable|string|max:n` field. */
  predicate OptionalText(s: Field<string>, max: nat) {
    s.Sent? ==> |s.value| <= max
  }

  /** The validation rules of `store` and `update` for a scope. */
  predicate Acceptable(st: Store, scope: Scope, input: EmissionInput) {
    && Lookup(st.factors.rows, input.factorId).Some?
    && (input.stakeholderId.Sent? ==> Lookup(st.stakeholders.rows, input.stakeholderId.value).Some?)
    && ValidDate(input.date)
    && input.activity >= 0.0
    && RequiredText(input.activityUnit, 50)
    && OptionalText(input.location, 255)
    && (scope == Scope2 ==> input.rec.None? || input.rec.value >= 0.0)
    && (scope == Scope3 ==> input.category.Some? && RequiredText(input.category.value, 255))
  }

  /** Checks the rules one field at a time and names the first field that fails. */
  function Validate(st: Store, scope: Scope, input: EmissionInput): (r: Result<Detail, Error>)
    ensures r.Ok? <==> Acceptable(st, scope, input)
    ensures r.Err? ==> r.error.Invalid?
    ensures r.Ok? ==> DetailScope(r.value) == scope
    ensures r.Ok? && scope == Scope2 ==> r.value == Energy(input.rec.GetOr(0.0))
    ensures r.Ok? && scope == Scope3 ==> r.value == ValueChain(input.category.value)
  {
    if Lookup(st.factors.rows, input.factorId).None? then Err(Invalid("emission_factor_id"))
    else if input.stakeholderId.Sent? && Lookup(st.stakeholders.rows, input.stakeholderId.value).None? then
      Err(Invalid("stakeholder_id"))
    else if !ValidDate(input.date) then Err(Invalid("measurement_date"))
    else if input.activity < 0.0 then Err(Invalid("activity_value"))
    else if !RequiredText(input.activityUnit, 50) then Err(Invalid("activity_unit"))
    else if !OptionalText(input.location, 255) then Err(Invalid("location"))
    else
      match scope
      case Scope1 => Ok(Direct)
      case Scope2 =>
        if input.rec.Some? && input.rec.value < 0.0 then Err(Invalid("rec_value"))
        else Ok(Energy(input.rec.GetOr(0.0)))
      case Scope3 =>
        if input.category.None? || !RequiredText(input.category.value, 255) then Err(Invalid("category"))
        else Ok(ValueChain(input.category.value))
  }

  /** The record a request saves over a row whose nullable columns were
      `was`: the submitted fields, then `emission_result` recomputed once the
      factor is loaded. */
  function Build(st: Store, scope: Scope, input: EmissionInput, detail: Detail, was: Nullables): Emission {
    var e := Emission(input.factorId, input.stakeholderId.Onto(was.stakeholderId), input.date, input.activity,
                      input.activityUnit, 0.0, input.location.Onto(was.location), input.notes.Onto(was.notes), detail);
    e.(result := StoredResult(scope, CalculateEmission(e, FactorOf(st, e))))
  }

  /** A nullable column after a request: the value sent, null when sent
      empty, and the old value `was` when left out. */
  predicate Written<T(==)>(f: Field<T>, was: Option<T>, now: Option<T>) {
    match f
    case Omitted => now == was
    case Null => now == None
    case Sent(v) => now == Some(v)
  }

  /** `e` is what an accepted submission saves over a row whose nullable
      columns were `was`. */
  predicate Saved(st: Store, scope: Scope, input: EmissionInput, was: Nullables, e: Emission)
    requires Lookup(st.factors.rows, input.factorId).Some?
  {
    && e.factorId == input.factorId
    && Written(input.stakeholderId, was.stakeholderId, e.stakeholderId)
    && e.date == input.date
    && e.activity == input.activity
    && e.activityUnit == input.activityUnit
    && Written(input.location, was.location, e.location)
    && Written(input.notes, was.notes, e.notes)
    && DetailScope(e.detail) == scope
    && (scope == Scope2 ==> e.detail == Energy(input.rec.GetOr(0.0)))
    && (scope == Scope3 ==> input.category.Some? && e.detail == ValueChain(input.category.value))
    && PromisedResult(scope, input, Lookup(st.factors.rows, input.factorId).value.factor, e.result)
  }

  /** The emission the controllers promise for an accepted submission, stated
      with the formulas of the models: activity times factor over 1000, less the
      certificates for Scope 2 (a missing REC value counting as 0), rounded to two
      decimals for Scopes 2 and 3. */
  predicate PromisedResult(scope: Scope, input: EmissionInput, factor: real, result: real) {
    && (scope == Scope1 ==> result * 1000.0 == input.activity * factor)
    && (scope == Scope2 ==> result == Round2(Tons(input.activity - input.rec.GetOr(0.0), factor)))
    && (scope == Scope3 ==> result == Round2(Tons(input.activity, factor)))
  }

  /** Everything outside the record table of `scope` is left as it was. */
  predicate OthersUnchanged(st: Store, st': Store, scope: Scope) {
    && st'.factors == st.factors
    && st'.stakeholders == st.stakeholders
    && forall o :: o != scope ==> Emissions(st', o) == Emissions(st, o)
  }

  /** `store`: validates, appends the record under the next id and saves the
      recomputed result. */
  function Create(st: Store, scope: Scope, input: EmissionInput): (r: Result<Store, Error>)
    ensures r.Ok? <==> Acceptable(st, scope, input)
    ensures r.Err? ==> r.error.Invalid?
    ensures r.Ok? ==>
      var t := Emissions(st, scope);
      var t' := Emissions(r.value, scope);
      && t'.nextId == t.nextId + 1
      && |t'.rows| == |t.rows| + 1
      && t'.rows[..|t.rows|] == t.rows
      && t'.rows[|t.rows|].id == t.nextId
      && Saved(st, scope, input, Unset, t'.rows[|t.rows|].val)
    ensures r.Ok? ==> OthersUnchanged(st, r.value, scope)
  {
    match Validate(st, scope, input)
    case Err(e) => Err(e)
    case Ok(detail) =>
      var e := Build(st, scope, input, detail, Unset);
      BuildSound(st, scope, input, Unset);
      var t := Insert(Emissions(st, scope), e);
      assert t.rows[..|Emissions(st, scope).rows|] == Emissions(st, scope).rows;
      Ok(WithEmissions(st, scope, t))
  }

  /** `update`: the addressed record must exist; the submitted fields are
      written over it, the ones the request leaves out keep their values, and
      its result is recomputed from the new fields and factor. */
  function Update(st: Store, scope: Scope, id: nat, input: EmissionInput): (r: Result<Store, Error>)
    ensures Lookup(Emissions(st, scope).rows, id).None? ==> r == Err(NotFound)
    ensures Lookup(Emissions(st, scope).rows, id).Some? ==> (r.Ok? <==> Acceptable(st, scope, input))
    ensures r.Ok? ==>
      var t := Emissions(st, scope);
      var t' := Emissions(r.value, scope);
      && t'.nextId == t.nextId
      && |t'.rows| == |t.rows|
      && forall i :: 0 <= i < |t.rows| ==>
           && t'.rows[i].id == t.rows[i].id
           && (t.rows[i].id != id ==> t'.rows[i] == t.rows[i])
           && (t.rows[i].id == id ==> Saved(st, scope, input, NullablesOf(Lookup(t.rows, id).value), t'.rows[i].val))
    ensures r.Ok? ==> OthersUnchanged(st, r.value, scope)
  {
    var t := Emissions(st, scope);
    if Lookup(t.rows, id).None? then Err(NotFound)
    else
      match Validate(st, scope, input)
      case Err(e) => Err(e)
      case Ok(detail) =>
        var was := NullablesOf(Lookup(t.rows, id).value);
        var e := Build(st, scope, input, detail, was);
        BuildSound(st, scope, input, was);
        Ok(WithEmissions(st, scope, Table(Replace(t.rows, id, e), t.nextId)))
  }

  /** In a table with unique ids the updated record takes the submitted
      factor, date and activity; a nullable field left out keeps its value,
      one sent empty is cleared, and one sent with a value takes it. */
  lemma UpdateFields(st: Store, scope: Scope, id: nat, input: EmissionInput, i: int)
    requires WellFormed(Emissions(st, scope)) && Update(st, scope, id, input).Ok?
    requires 0 <= i < |Emissions(st, scope).rows| && Emissions(st, scope).rows[i].id == id
    ensures var was := Emissions(st, scope).rows[i].val;
      var now := Emissions(Update(st, scope, id, input).value, scope).rows[i].val;
      && now.factorId == input.factorId && now.date == input.date && now.activity == input.activity
      && (input.stakeholderId.Omitted? ==> now.stakeholderId == was.stakeholderId)
      && (input.stakeholderId.Null? ==> now.stakeholderId.None?)
      && (input.stakeholderId.Sent? ==> now.stakeholderId == Some(input.stakeholderId.value))
      && (input.location.Omitted? ==> now.location == was.location)
      && (input.location.Null? ==> now.location.None?)
      && (input.location.Sent? ==> now.location == Some(input.location.value))
      && (input.notes.Omitted? ==> now.notes == was.notes)
      && (input.notes.Null? ==> now.notes.None?)
      && (input.notes.Sent? ==> now.notes == Some(input.notes.value))
  {
    LookupUnique(Emissions(st, scope), i);
  }

  /** `destroy`: removes exactly the addressed record. */
  function Destroy(st: Store, scope: Scope, id: nat): (r: Result<Store, Error>)
    ensures Lookup(Emissions(st, scope).rows, id).None? <==> r == Err(NotFound)
    ensures r.Ok? <==> Lookup(Emissions(st, scope).rows, id).Some?
    ensures r.Ok? ==>
      && Emissions(r.value, scope).nextId == Emissions(st, scope).nextId
      && forall x :: x in Emissions(r.value, scope).rows <==> x in Emissions(st, scope).rows && x.id != id
    ensures r.Ok? ==> OthersUnchanged(st, r.value, scope)
  {
    var t := Emissions(st, scope);
    if Lookup(t.rows, id).None? then Err(NotFound)
    else Ok(WithEmissions(st, scope, Retain(t, (x: Row<Emission>) => x.id != id)))
  }

  /** The listing order: later measurement dates first. */
  predicate NewestFirst(a: Row<Emission>, b: Row<Emission>) {
    DateLe(b.val.date, a.val.date)
  }

  lemma NewestFirstTotal()
    ensures Total(NewestFirst)
  {
    forall a, b
      ensures NewestFirst(a, b) || NewestFirst(b, a)
    {
      DateLeTotal(a.val.date, b.val.date);
    }
  }

  /** The criteria a scope's `index` reads: only Scope 3 has a category filter. */
  function EffectiveFilter(scope: Scope, f: RecordFilter): RecordFilter {
    if scope == Scope3 then f else f.(category := None)
  }

  /** A record appears in a listing `r` as often as it is stored if it matches
      the criteria, and not at all otherwise. */
  predicate ListedTimes(st: Store, scope: Scope, f: RecordFilter, r: seq<Row<Emission>>, x: Row<Emission>) {
    multiset(r)[x]
      == if Matches(st.stakeholders.rows, EffectiveFilter(scope, f), x.val)
         then multiset(Emissions(st, scope).rows)[x] else 0
  }

  /** `index`: the records satisfying every supplied criterion, each as often as
      it is stored, ordered by measurement date descending. */
  function Index(st: Store, scope: Scope, f: RecordFilter): (r: seq<Row<Emission>>)
    ensures forall x :: x in r <==>
      x in Emissions(st, scope).rows && Matches(st.stakeholders.rows, EffectiveFilter(scope, f), x.val)
    ensures forall x :: ListedTimes(st, scope, f, r, x)
    ensures Sorted(r, NewestFirst)
  {
    NewestFirstTotal();
    var rows := Filter(Emissions(st, scope).rows, RowMatcher(st.stakeholders.rows, EffectiveFilter(scope, f)));
    FilterCount(Emissions(st, scope).rows, RowMatcher(st.stakeholders.rows, EffectiveFilter(scope, f)));
    var r := Sort(rows, NewestFirst);
    assert forall x :: x in r <==> x in rows by {
      forall x
        ensures x in r <==> x in rows
      {
        assert x in r <==> multiset(r)[x] > 0;
        assert x in rows <==> multiset(rows)[x] > 0;
      }
    }
    r
  }

  /** With no criteria the listing holds every record of the scope. */
  lemma IndexWithoutFilters(st: Store, scope: Scope)
    ensures multiset(Index(st, scope, NoFilter())) == multiset(Emissions(st, scope).rows)
  {
    var r := Index(st, scope, NoFilter());
    assert EffectiveFilter(scope, NoFilter()) == NoFilter();
    forall x
      ensures multiset(r)[x] == multiset(Emissions(st, scope).rows)[x]
    {
      assert ListedTimes(st, scope, NoFilter(), r, x);
      NoFilterMatchesAll(st.stakeholders.rows, x.val);
    }
  }

  /** A department criterion never lists a record without a stakeholder. */
  lemma IndexDepartmentNeedsStakeholder(st: Store, scope: Scope, f: RecordFilter, x: Row<Emission>)
    requires f.department.Some? && x in Index(st, scope, f)
    ensures x.val.stakeholderId.Some?
  {
  }

  /** A Scope 3 category criterion lists only records of exactly that category;
      the other scopes ignore it. */
  lemma IndexCategory(st: Store, scope: Scope, f: RecordFilter, x: Row<Emission>)
    requires f.category.Some? && x in Index(st, scope, f) && Valid(st)
    ensures scope == Scope3 ==> x.val.detail == ValueChain(f.category.value)
    ensures scope != Scope3 ==> Index(st, scope, f) == Index(st, scope, f.(category := None))
  {
    if scope == Scope3 {
      var i :| 0 <= i < |Emissions(st, scope).rows| && Emissions(st, scope).rows[i] == x;
      assert RecordValid(st, scope, x.val);
    }
  }

  /** Records that are valid in one state stay valid in a state with the same
      catalogue of factors and stakeholders, and keep their cache status. */
  lemma SameCatalogue(st: Store, st': Store, s: Scope, e: Emission)
    requires st'.factors == st.factors && st'.stakeholders == st.stakeholders
    ensures RecordValid(st', s, e) == RecordValid(st, s, e)
    ensures Consistent(st', s, e) == Consistent(st, s, e)
  {
  }

  /** The result a request saves is the promised one and matches the cache rule. */
  lemma BuildResult(st: Store, scope: Scope, input: EmissionInput, d: Detail, was: Nullables)
    requires Lookup(st.factors.rows, input.factorId).Some?
    requires DetailScope(d) == scope
    requires scope == Scope2 ==> d == Energy(input.rec.GetOr(0.0))
    ensures PromisedResult(scope, input, Lookup(st.factors.rows, input.factorId).value.factor,
                           Build(st, scope, input, d, was).result)
    ensures Consistent(st, scope, Build(st, scope, input, d, was))
  {
    var e := Build(st, scope, input, d, was);
    var e0 := e.(result := 0.0);
    var f := Lookup(st.factors.rows, input.factorId).value;
    assert FactorOf(st, e0) == FactorOf(st, e) == Some(f);
    assert e.result == StoredResult(scope, CalculateEmission(e0, Some(f)));
    OnlyInputsMatter(e, e0, f, f);
  }

  /** A record built from an accepted submission is up to date and carries
      the submitted fields and the promised result; it is valid when the
      stakeholder it keeps from the old row exists. */
  lemma BuildSound(st: Store, scope: Scope, input: EmissionInput, was: Nullables)
    requires Acceptable(st, scope, input)
    ensures Validate(st, scope, input).Ok?
    ensures (was.stakeholderId.None? || Lookup(st.stakeholders.rows, was.stakeholderId.value).Some?) ==>
      RecordValid(st, scope, Build(st, scope, input, Validate(st, scope, input).value, was))
    ensures Consistent(st, scope, Build(st, scope, input, Validate(st, scope, input).value, was))
    ensures Saved(st, scope, input, was, Build(st, scope, input, Validate(st, scope, input).value, was))
  {
    BuildResult(st, scope, input, Validate(st, scope, input).value, was);
  }

  /** `store` keeps the database invariant and every cached result up to date. */
  lemma CreatePreserves(st: Store, scope: Scope, input: EmissionInput)
    requires Valid(st) && Create(st, scope, input).Ok?
    ensures Valid(Create(st, scope, input).value)
    ensures CacheConsistent(st) ==> CacheConsistent(Create(st, scope, input).value)
  {
    var st' := Create(st, scope, input).value;
    BuildSound(st, scope, input, Unset);
    forall s, i | 0 <= i < |Emissions(st', s).rows|
      ensures RecordValid(st', s, Emissions(st', s).rows[i].val)
      ensures CacheConsistent(st) ==> Consistent(st', s, Emissions(st', s).rows[i].val)
    {
      var e := Emissions(st', s).rows[i].val;
      SameCatalogue(st, st', s, e);
      if s == scope && i < |Emissions(st, s).rows| {
        assert Emissions(st', s).rows[i] == Emissions(st, s).rows[i];
      }
    }
  }

  /** `update` keeps the database invariant and every cached result up to date. */
  lemma UpdatePreserves(st: Store, scope: Scope, id: nat, input: EmissionInput)
    requires Valid(st) && Update(st, scope, id, input).Ok?
    ensures Valid(Update(st, scope, id, input).value)
    ensures CacheConsistent(st) ==> CacheConsistent(Update(st, scope, id, input).value)
  {
    var st' := Update(st, scope, id, input).value;
    var t := Emissions(st, scope);
    var was := Lookup(t.rows, id).value;
    LookupSpec(t.rows, id);
    var j :| 0 <= j < |t.rows| && t.rows[j] == Row(id, was);
    assert RecordValid(st, scope, t.rows[j].val);
    BuildSound(st, scope, input, NullablesOf(was));
    var t' := Emissions(st', scope);
    assert WellFormed(t') by {
      forall i, j | 0 <= i < j < |t'.rows|
        ensures t'.rows[i].id < t'.rows[j].id
      {
        assert t'.rows[i].id == t.rows[i].id && t'.rows[j].id == t.rows[j].id;
      }
    }
    forall s, i | 0 <= i < |Emissions(st', s).rows|
      ensures RecordValid(st', s, Emissions(st', s).rows[i].val)
      ensures CacheConsistent(st) ==> Consistent(st', s, Emissions(st', s).rows[i].val)
    {
      var e := Emissions(st', s).rows[i].val;
      SameCatalogue(st, st', s, e);
    }
  }

  /** `destroy` keeps the database invariant and every cached result up to date. */
  lemma DestroyPreserves(st: Store, scope: Scope, id: nat)
    requires Valid(st) && Destroy(st, scope, id).Ok?
    ensures Valid(Destroy(st, scope, id).value)
    ensures CacheConsistent(st) ==> CacheConsistent(Destroy(st, scope, id).value)
  {
    var st' := Destroy(st, scope, id).value;
    forall s, i | 0 <= i < |Emissions(st', s).rows|
      ensures RecordValid(st', s, Emissions(st', s).rows[i].val)
      ensures CacheConsistent(st) ==> Consistent(st', s, Emissions(st', s).rows[i].val)
    {
      var x := Emissions(st', s).rows[i];
      SameCatalogue(st, st', s, x.val);
      assert x in Emissions(st, s).rows;
    }
  }
}

=== FILE: emission_status.dfy ===
/** The emission alert of the dashboard page: the year the page shows, the
    classification of that year's measured total against its target, and
    when the alert is displayed. */
module EmissionStatus {
  import opened Common
  import opened Decimal
  import opened Text
  import opened Store
  import opened Aggregates
  import opened Trajectory

  /** The three kinds of alert: the `type` of the status. */
  datatype Level = Danger | Warning | Success

  /** How serious a status is: success, then warning, then danger. */
  function Severity(s: Level): nat {
    match s
    case Success => 0
    case Warning => 1
    case Danger => 2
  }

  /** `(actual / target) * 100` in floating point, when it is a number that
      can reach 90. A 0 target gives `NaN` (for a 0 actual), `-Infinity` (for
      a negative one) or `+Infinity` (for a positive one, which is already
      danger); the first two compare false with anything, so they are `None`. */
  function Percentage(actual: real, target: real): (r: Option<real>)
    ensures r.Some? <==> target != 0.0
  {
    if target == 0.0 then None else Some(actual / target * 100.0)
  }

  /** The percentage is the multiple of the target that is 100 times the actual. */
  lemma PercentageValue(actual: real, target: real)
    requires target != 0.0
    ensures Percentage(actual, target).value * target == actual * 100.0
  {
  }

  /** `getEmissionStatus` once it has a measured total: danger above the
      target, warning at 90% of it or more, success otherwise. */
  function Classify(actual: real, target: real): (r: Level)
    ensures r == Danger <==> actual > target
    ensures target == 0.0 ==> r != Warning
  {
    if actual > target then Danger
    else
      match Percentage(actual, target)
      case Some(p) => if p >= 90.0 then Warning else Success
      case None => Success
  }

  /** Danger exactly when the measured total exceeds the target. */
  lemma DangerIff(actual: real, target: real)
    ensures Classify(actual, target) == Danger <==> actual > target
  {
  }

  /** For a positive target: warning exactly from 90% of the target up to the
      target itself, success exactly below 90%. */
  lemma PositiveTarget(actual: real, target: real)
    requires target > 0.0
    ensures Classify(actual, target) == Warning <==> actual <= target && actual * 10.0 >= target * 9.0
    ensures Classify(actual, target) == Success <==> actual * 10.0 < target * 9.0
  {
    if actual <= target {
      var p := Percentage(actual, target).value;
      PercentageValue(actual, target);
      if p >= 90.0 {
        assert p * target >= 90.0 * target;
      } else {
        assert p * target < 90.0 * target;
      }
    }
  }

  /** In the success case the reduction the message reports, `(target -
      actual) / target * 100`, is more than 10%. */
  lemma SuccessReduction(actual: real, target: real)
    requires target > 0.0 && Classify(actual, target) == Success
    ensures (target - actual) / target * 100.0 > 10.0
  {
    PositiveTarget(actual, target);
    var q := (target - actual) / target;
    assert q * target == target - actual;
    assert q * target > 0.1 * target;
  }

  /** A negative target (from a negative baseline) gives warning whenever it
      is not exceeded, since the quotient of two negatives is at least 1. */
  lemma NegativeTarget(actual: real, target: real)
    requires target < 0.0 && actual <= target
    ensures Classify(actual, target) == Warning
  {
    var p := Percentage(actual, target).value;
    PercentageValue(actual, target);
    assert p * target <= 100.0 * target;
  }

  /** A 0 target gives success whenever it is not exceeded. */
  lemma ZeroTarget(actual: real)
    requires actual <= 0.0
    ensures Classify(actual, 0.0) == Success
  {
  }

  /** A larger measured total never gives a less serious status. */
  lemma ClassifyMonotone(actual: real, actual2: real, target: real)
    requires actual <= actual2
    ensures Severity(Classify(actual, target)) <= Severity(Classify(actual2, target))
  {
    if target > 0.0 {
      PositiveTarget(actual, target);
      PositiveTarget(actual2, target);
    } else if target < 0.0 {
      if actual <= target {
        NegativeTarget(actual, target);
      }
      if actual2 <= target {
        NegativeTarget(actual2, target);
      }
    }
  }

  /** `targetChartData.find(item => item.year === selectedYear)`: the first
      point of that year. */
  function Find(chart: seq<Point>, year: string): (r: Option<Point>)
    ensures r.None? <==> forall k :: 0 <= k < |chart| ==> chart[k].year != year
    ensures r.Some? ==> exists k :: (0 <= k < |chart| && chart[k] == r.value && r.value.year == year
      && forall j :: 0 <= j < k ==> chart[j].year != year)
  {
    if |chart| == 0 then None
    else if chart[0].year == year then Some(chart[0])
    else
      var r := Find(chart[1..], year);
      assert forall k :: 1 <= k < |chart| ==> chart[k] == chart[1..][k - 1];
      r
  }

  /** `getEmissionStatus()`: nothing when the chart has no point for the
      selected year or that point has no measured total; otherwise the class
      of the measured total against the point's target. */
  function Status(chart: seq<Point>, selectedYear: string): (r: Option<Level>)
    ensures r.None? <==> Find(chart, selectedYear).None? || Find(chart, selectedYear).value.actual.None?
  {
    match Find(chart, selectedYear)
    case None => None
    case Some(p) =>
      match p.actual
      case None => None
      case Some(a) => Some(Classify(a, p.target))
  }

  /** The initial `selectedYear`: the request's year when it is not blank,
      otherwise the current year as text. */
  function SelectedYear(year: Option<string>, currentYear: nat): (r: string)
    ensures year.Some? && !IsBlank(year.value) ==> r == year.value
    ensures (year.None? || IsBlank(year.value)) ==> ParseYear(r) == Some(currentYear)
  {
    ParseYearOfText(currentYear);
    if year.Some? && !IsBlank(year.value) then year.value else NatToString(currentYear)
  }

  /** The alert is rendered when there is a status and the year is not `all`. */
  predicate AlertShown(status: Option<Level>, selectedYear: string) {
    status.Some? && selectedYear != "all"
  }

  /** The chart has no point for `all`, whose letters are not digits, so the
      status is already nothing there. */
  lemma NoStatusForAll(st: Store, b: real, currentYear: int)
    ensures Status(Chart(st, b, currentYear), "all").None?
  {
    var chart := Chart(st, b, currentYear);
    forall k | 0 <= k < |chart|
      ensures chart[k].year != "all"
    {
      ChartYears(st, b, currentYear, k, k);
      assert ParseYear("all").None? by {
        assert !AllDigits("all") by {
          assert "all"[0] == 'a';
        }
      }
    }
  }

  /** `find` returns the first point of the year it looks for. */
  lemma FindFirst(chart: seq<Point>, year: string, k: int)
    requires 0 <= k < |chart| && chart[k].year == year
    requires forall j :: 0 <= j < k ==> chart[j].year != year
    ensures Find(chart, year) == Some(chart[k])
  {
    var r := Find(chart, year);
    var i :| 0 <= i < |chart| && chart[i] == r.value && r.value.year == year
      && forall j :: 0 <= j < i ==> chart[j].year != year;
    assert !(i < k) && !(k < i);
  }

  /** Looking up a chart year finds that year's point. */
  lemma FindChartYear(st: Store, b: real, currentYear: int, k: int)
    requires 0 <= k < 7
    ensures Find(Chart(st, b, currentYear), NatToString(BaselineYear + k)) == Some(Chart(st, b, currentYear)[k])
  {
    var chart := Chart(st, b, currentYear);
    var year := NatToString(BaselineYear + k);
    ChartYear(st, b, currentYear, k);
    forall j | 0 <= j < k
      ensures chart[j].year != year
    {
      ChartYears(st, b, currentYear, j, k);
    }
    FindFirst(chart, year, k);
  }

  /** On the chart, the status of a year from 2024 to 2030 exists exactly
      when that year is not in the future and its total is not 0. */
  lemma StatusOfChartYear(st: Store, b: real, currentYear: int, k: int)
    requires 0 <= k < 7
    ensures Status(Chart(st, b, currentYear), NatToString(BaselineYear + k)).Some?
      <==> BaselineYear + k <= currentYear && AllScopesYearSum(st, BaselineYear + k) != 0.0
  {
    FindChartYear(st, b, currentYear, k);
    ChartActual(st, b, currentYear, k);
  }

  /** The status of the first point of the selected year that has a measured
      total classifies that total against the point's target. */
  lemma StatusOfFound(chart: seq<Point>, year: string, k: int)
    requires 0 <= k < |chart| && chart[k].year == year && chart[k].actual.Some?
    requires forall j :: 0 <= j < k ==> chart[j].year != year
    ensures Status(chart, year) == Some(Classify(chart[k].actual.value, chart[k].target))
  {
    FindFirst(chart, year, k);
  }

  /** When the request names no year and the current year lies in 2024 to
      2030, the page opens on the current year and shows the alert exactly
      when that year's total is not 0. */
  lemma DefaultYearAlert(st: Store, b: real, year: Option<string>, currentYear: nat)
    requires year.None? || IsBlank(year.value)
    requires BaselineYear <= currentYear <= TargetYear
    ensures var selected := SelectedYear(year, currentYear);
      AlertShown(Status(Chart(st, b, currentYear), selected), selected) <==> AllScopesYearSum(st, currentYear) != 0.0
  {
    var selected := SelectedYear(year, currentYear);
    assert selected == NatToString(currentYear);
    StatusOfChartYear(st, b, currentYear, currentYear - BaselineYear);
    assert selected != "all" by {
      assert "all"[0] == 'a';
    }
  }
}

=== FILE: filters.dfy ===
/** The optional list filters shared by the record listings and the dashboard:
    every supplied filter must hold (AND), date bounds are inclusive. */
module Filters {
  import opened Common
  import opened Domain
  import opened Tables

  /** Criteria of a record listing; `None` means the request did not supply it. */
  datatype RecordFilter = RecordFilter(
    factorId: Option<nat>,
    department: Option<string>,
    category: Option<string>,
    dateFrom: Option<Date>,
    dateTo: Option<Date>)

  /** No criteria at all. */
  function NoFilter(): RecordFilter {
    RecordFilter(None, None, None, None, None)
  }

  /** The department of the record's stakeholder; absent when the record has no
      stakeholder, the stakeholder does not exist, or its department is null. */
  function DepartmentOf(stakeholders: seq<Row<Stakeholder>>, e: Emission): Option<string> {
    if e.stakeholderId.None? then None
    else
      match Lookup(stakeholders, e.stakeholderId.value)
      case None => None
      case Some(s) => s.department
  }

  /** The Scope 3 category of a record, absent for the other scopes. */
  function CategoryOf(e: Emission): Option<string> {
    match e.detail
    case ValueChain(c) => Some(c)
    case _ => None
  }

  /** `whereDate('measurement_date', '>=', from)` and `'<=', to`, each when supplied. */
  predicate InDateRange(e: Emission, from: Option<Date>, to: Option<Date>) {
    && (from.None? || DateLe(from.value, e.date))
    && (to.None? || DateLe(e.date, to.value))
  }

  /** A record satisfies every supplied criterion. */
  predicate Matches(stakeholders: seq<Row<Stakeholder>>, f: RecordFilter, e: Emission) {
    && (f.factorId.None? || e.factorId == f.factorId.value)
    && (f.department.None? || DepartmentOf(stakeholders, e) == f.department)
    && (f.category.None? || CategoryOf(e) == f.category)
    && InDateRange(e, f.dateFrom, f.dateTo)
  }

  /** `Matches` as a condition on rows, for filtering. */
  function RowMatcher(stakeholders: seq<Row<Stakeholder>>, f: RecordFilter): Row<Emission> -> bool {
    (x: Row<Emission>) => Matches(stakeholders, f, x.val)
  }

  /** With no criteria, every record matches. */
  lemma NoFilterMatchesAll(stakeholders: seq<Row<Stakeholder>>, e: Emission)
    ensures Matches(stakeholders, NoFilter(), e)
  {
  }

  /** A department criterion never matches a record without a stakeholder. */
  lemma DepartmentNeedsStakeholder(stakeholders: seq<Row<Stakeholder>>, f: RecordFilter, e: Emission)
    requires f.department.Some? && e.stakeholderId.None?
    ensures !Matches(stakeholders, f, e)
  {
  }

  /** Both date bounds are inclusive: a record dated on a bound matches it. */
  lemma BoundsInclusive(e: Emission)
    ensures InDateRange(e, Some(e.date), Some(e.date))
  {
  }
}

=== FILE: seqs.dfy ===
/** Sequence operations that the application's queries are built from: `where`
    clauses (filters), `orderBy` (a sort under a total preorder) and `unique`. */
module Seqs {

  /** `a` is `b` with some elements left out, the rest in their original order. */
  predicate IsSubsequence<T(==)>(a: seq<T>, b: seq<T>)
    decreases |b|
  {
    && |a| <= |b|
    && (|a| == 0
        || (a[0] == b[0] && IsSubsequence(a[1..], b[1..]))
        || IsSubsequence(a, b[1..]))
  }

  /** The elements of `s` that satisfy `p`, in order: a `where` clause. */
  function Filter<T(==,!new)>(s: seq<T>, p: T -> bool): (r: seq<T>)
    ensures forall x :: x in r <==> x in s && p(x)
    ensures IsSubsequence(r, s)
  {
    if |s| == 0 then []
    else
      var rest := Filter(s[1..], p);
      if p(s[0]) then
        assert ([s[0]] + rest)[1..] == rest;
        [s[0]] + rest
      else rest
  }

  /** How the first element contributes to a filter's result. */
  lemma FilterCons<T(!new)>(s: seq<T>, p: T -> bool)
    requires |s| > 0
    ensures Filter(s, p) == (if p(s[0]) then [s[0]] else []) + Filter(s[1..], p)
  {
  }

  /** A filter keeps each element satisfying the condition as often as it
      occurs, and no other. */
  lemma {:induction false} FilterCount<T(!new)>(s: seq<T>, p: T -> bool)
    ensures forall x :: multiset(Filter(s, p))[x] == if p(x) then multiset(s)[x] else 0
  {
    if |s| > 0 {
      FilterCount(s[1..], p);
      assert s == [s[0]] + s[1..];
    }
  }

  /** Filtering twice by the same condition is filtering once. */
  lemma {:induction false} FilterIdempotent<T(!new)>(s: seq<T>, p: T -> bool)
    ensures Filter(Filter(s, p), p) == Filter(s, p)
  {
    if |s| > 0 {
      FilterIdempotent(s[1..], p);
      if p(s[0]) {
        assert ([s[0]] + Filter(s[1..], p))[1..] == Filter(s[1..], p);
      }
    }
  }

  /** Two filters can be applied in either order. */
  lemma {:induction false} FilterCommutes<T(!new)>(s: seq<T>, p: T -> bool, q: T -> bool)
    ensures Filter(Filter(s, p), q) == Filter(Filter(s, q), p)
  {
    if |s| > 0 {
      FilterCommutes(s[1..], p, q);
      var fp := Filter(s[1..], p);
      var fq := Filter(s[1..], q);
      if p(s[0]) {
        assert ([s[0]] + fp)[1..] == fp;
      }
      if q(s[0]) {
        assert ([s[0]] + fq)[1..] == fq;
      }
      if p(s[0]) && q(s[0]) {
        assert ([s[0]] + Filter(fp, q))[1..] == Filter(fp, q);
        assert ([s[0]] + Filter(fq, p))[1..] == Filter(fq, p);
      }
    }
  }

  /** A filter whose condition holds everywhere keeps the whole sequence. */
  lemma {:induction false} FilterAll<T(!new)>(s: seq<T>, p: T -> bool)
    requires forall i :: 0 <= i < |s| ==> p(s[i])
    ensures Filter(s, p) == s
  {
    if |s| > 0 {
      FilterAll(s[1..], p);
      assert s == [s[0]] + s[1..];
    }
  }

  /** A stronger condition keeps a sub-multiset of what a weaker one keeps. */
  lemma {:induction false} FilterStronger<T(!new)>(s: seq<T>, p: T -> bool, q: T -> bool)
    requires forall x :: p(x) ==> q(x)
    ensures multiset(Filter(s, p)) <= multiset(Filter(s, q))
  {
    FilterCount(s, p);
    FilterCount(s, q);
  }

  /** `le` relates every two values one way or the other. */
  ghost predicate Total<T(!new)>(le: (T, T) -> bool) {
    forall a, b :: le(a, b) || le(b, a)
  }

  /** `le` is transitive. */
  ghost predicate Transitive<T(!new)>(le: (T, T) -> bool) {
    forall a, b, c :: le(a, b) && le(b, c) ==> le(a, c)
  }

  /** Every element is related by `le` to its successor. */
  predicate Sorted<T>(s: seq<T>, le: (T, T) -> bool) {
    forall i :: 0 < i < |s| ==> le(s[i - 1], s[i])
  }

  /** Under a transitive `le`, adjacent order is order between every two positions. */
  lemma {:induction false} SortedAllPairs<T(!new)>(s: seq<T>, le: (T, T) -> bool, i: int, j: int)
    requires Transitive(le) && Sorted(s, le)
    requires 0 <= i < j < |s|
    ensures le(s[i], s[j])
    decreases j - i
  {
    if i + 1 < j {
      SortedAllPairs(s, le, i + 1, j);
      assert le(s[i], s[i + 1]);
    }
  }

  /** Puts `x` into a sorted sequence just before the first element it precedes. */
  function InsertSorted<T(!new)>(x: T, s: seq<T>, le: (T, T) -> bool): (r: seq<T>)
    requires Total(le)
    ensures multiset(r) == multiset(s) + multiset{x}
    ensures |r| == |s| + 1
    ensures |r| > 0 && (r[0] == x || (|s| > 0 && r[0] == s[0]))
    ensures Sorted(s, le) ==> Sorted(r, le)
  {
    if |s| == 0 then [x]
    else if le(x, s[0]) then [x] + s
    else
      assert s == [s[0]] + s[1..];
      [s[0]] + InsertSorted(x, s[1..], le)
  }

  /** Insertion sort: `orderBy` under the order `le`. */
  function Sort<T(!new)>(s: seq<T>, le: (T, T) -> bool): (r: seq<T>)
    requires Total(le)
    ensures multiset(r) == multiset(s)
    ensures |r| == |s|
    ensures Sorted(r, le)
  {
    if |s| == 0 then []
    else
      assert s == [s[0]] + s[1..];
      InsertSorted(s[0], Sort(s[1..], le), le)
  }

  /** The distinct elements of `s`, each kept at its first occurrence: `unique()`. */
  function Dedup<T(==,!new)>(s: seq<T>): (r: seq<T>)
    ensures forall x :: x in r <==> x in s
    ensures forall i, j :: 0 <= i < j < |r| ==> r[i] != r[j]
  {
    if |s| == 0 then []
    else
      var init := Dedup(s[..|s| - 1]);
      assert s == s[..|s| - 1] + [s[|s| - 1]];
      if s[|s| - 1] in init then init else init + [s[|s| - 1]]
  }

  /** The distinct elements of `s` in `le` order: `unique()` followed by `sort()`. */
  function SortedDistinct<T(==,!new)>(s: seq<T>, le: (T, T) -> bool): (r: seq<T>)
    requires Total(le)
    ensures forall x :: x in r <==> x in s
    ensures forall i, j :: 0 <= i < j < |r| ==> r[i] != r[j]
    ensures Sorted(r, le)
  {
    var distinct := Dedup(s);
    var r := Sort(distinct, le);
    DistinctPermutation(distinct, r);
    assert forall x :: x in r <==> x in distinct by {
      forall x
        ensures x in r <==> x in distinct
      {
        assert x in r <==> x in multiset(r);
        assert x in distinct <==> x in multiset(distinct);
      }
    }
    r
  }

  /** A sequence without repetitions keeps that property under permutation. */
  lemma DistinctPermutation<T>(a: seq<T>, b: seq<T>)
    requires multiset(a) == multiset(b)
    requires forall i, j :: 0 <= i < j < |a| ==> a[i] != a[j]
    ensures forall i, j :: 0 <= i < j < |b| ==> b[i] != b[j]
  {
    forall i, j | 0 <= i < j < |b|
      ensures b[i] != b[j]
    {
      if b[i] == b[j] {
        assert multiset(b)[b[i]] >= 2 by {
          var rest := b[..i] + b[i + 1..];
          assert b == b[..i] + [b[i]] + b[i + 1..];
          assert b[j] in rest by {
            assert rest[j - 1] == b[j];
          }
          assert multiset(b) == multiset(rest) + multiset{b[i]};
        }
        DistinctCount(a, b[i]);
      }
    }
  }

  /** An element at two positions is counted at least twice. */
  lemma TwiceCounted<T>(s: seq<T>, i: int, j: int)
    requires 0 <= i < j < |s| && s[i] == s[j]
    ensures multiset(s)[s[i]] >= 2
  {
    var rest := s[..i] + s[i + 1..];
    assert s == s[..i] + [s[i]] + s[i + 1..];
    assert rest[j - 1] == s[j];
    assert multiset(s) == multiset(rest) + multiset{s[i]};
  }

  /** In a sequence without repetitions every element occurs at most once. */
  lemma {:induction false} DistinctCount<T>(a: seq<T>, x: T)
    requires forall i, j :: 0 <= i < j < |a| ==> a[i] != a[j]
    ensures multiset(a)[x] <= 1
  {
    if |a| > 0 {
      var init := a[..|a| - 1];
      assert a == init + [a[|a| - 1]];
      DistinctCount(init, x);
    }
  }
}

=== FILE: stakeholders.dfy ===
/** The `StakeholderController`: the searchable listing, validated create and
    update, and a delete that refuses stakeholders still referenced by records. */
module Stakeholders {
  import opened Common
  import opened Domain
  import opened Seqs
  import opened Tables
  import opened Text
  import opened Store

  /** The submitted form of a stakeholder; `receiveAlerts` is None when the
      request has no `receive_alerts` field. */
  datatype StakeholderInput = StakeholderInput(
    name: string,
    email: string,
    position: Field<string>,
    department: Field<string>,
    receiveAlerts: Option<bool>)

  /** The validation rules of `store` and `update`. Of the `email` rule only
      its most basic demand is modelled: an `@` somewhere. */
  predicate StakeholderAcceptable(input: StakeholderInput) {
    && 0 < |input.name| <= 255
    && 0 < |input.email| <= 255 && Contains(input.email, "@")
    && (input.position.Sent? ==> |input.position.value| <= 255)
    && (input.department.Sent? ==> |input.department.value| <= 255)
  }

  /** Checks the rules in the order they are listed; names the first field that fails. */
  function Check(input: StakeholderInput): (r: Option<Error>)
    ensures r.None? <==> StakeholderAcceptable(input)
    ensures r.Some? ==> r.value.Invalid?
  {
    if !(0 < |input.name| <= 255) then Some(Invalid("name"))
    else if !(0 < |input.email| <= 255 && Contains(input.email, "@")) then Some(Invalid("email"))
    else if input.position.Sent? && |input.position.value| > 255 then Some(Invalid("position"))
    else if input.department.Sent? && |input.department.value| > 255 then Some(Invalid("department"))
    else None
  }

  /** The stakeholder a submission writes over `was`: the fields it sends
      replace those of `was`; the ones it leaves out keep them. */
  function WriteOver(input: StakeholderInput, was: Stakeholder): Stakeholder {
    Stakeholder(input.name, input.email, input.position.Onto(was.position),
                input.department.Onto(was.department), input.receiveAlerts.GetOr(was.receiveAlerts))
  }

  /** A new row before a submission is written to it: the nullable columns
      null and the alert flag at the column default. */
  function Blank(alertsDefault: bool): Stakeholder {
    Stakeholder("", "", None, None, alertsDefault)
  }

  /** `store`: appends the validated stakeholder under the next id. A request
      without `receive_alerts` gets the column default `alertsDefault`. */
  function Create(st: Store, input: StakeholderInput, alertsDefault: bool): (r: Result<Store, Error>)
    ensures r.Ok? <==> StakeholderAcceptable(input)
    ensures r.Err? ==> r.error.Invalid?
    ensures r.Ok? ==>
      var t := st.stakeholders;
      var t' := r.value.stakeholders;
      && |t'.rows| == |t.rows| + 1
      && t'.rows[..|t.rows|] == t.rows
      && t'.rows[|t.rows|] == Row(t.nextId, WriteOver(input, Blank(alertsDefault)))
      && t'.nextId == t.nextId + 1
    ensures r.Ok? ==> r.value == st.(stakeholders := r.value.stakeholders)
  {
    if Check(input).Some? then Err(Check(input).value)
    else
      var t := Insert(st.stakeholders, WriteOver(input, Blank(alertsDefault)));
      assert t.rows[..|st.stakeholders.rows|] == st.stakeholders.rows;
      Ok(st.(stakeholders := t))
  }

  /** `update`: writes the submitted fields over an existing stakeholder;
      the fields the request leaves out, `receive_alerts` included, keep
      their values. */
  function Update(st: Store, id: nat, input: StakeholderInput): (r: Result<Store, Error>)
    ensures Lookup(st.stakeholders.rows, id).None? ==> r == Err(NotFound)
    ensures Lookup(st.stakeholders.rows, id).Some? ==> (r.Ok? <==> StakeholderAcceptable(input))
    ensures r.Err? && r != Err(NotFound) ==> r.error.Invalid?
    ensures r.Ok? ==>
      Lookup(r.value.stakeholders.rows, id) == Some(WriteOver(input, Lookup(st.stakeholders.rows, id).value))
    ensures r.Ok? ==> forall k :: k != id ==> Lookup(r.value.stakeholders.rows, k) == Lookup(st.stakeholders.rows, k)
    ensures r.Ok? ==> r.value == st.(stakeholders := r.value.stakeholders)
    ensures r.Ok? ==> r.value.stakeholders.nextId == st.stakeholders.nextId
  {
    match Lookup(st.stakeholders.rows, id)
    case None => Err(NotFound)
    case Some(current) =>
      if Check(input).Some? then Err(Check(input).value)
      else
        var s := WriteOver(input, current);
        var rows := Replace(st.stakeholders.rows, id, s);
        ReplaceLookup(st.stakeholders.rows, id, s, id);
        assert forall k :: k != id ==> Lookup(rows, k) == Lookup(st.stakeholders.rows, k) by {
          forall k | k != id
            ensures Lookup(rows, k) == Lookup(st.stakeholders.rows, k)
          {
            ReplaceLookup(st.stakeholders.rows, id, s, k);
          }
        }
        Ok(st.(stakeholders := Table(rows, st.stakeholders.nextId)))
  }

  /** After an update the stakeholder has the submitted name and email; a
      nullable field left out keeps its value, one sent empty is cleared, and
      one sent with a value takes it. */
  lemma UpdateFields(st: Store, id: nat, input: StakeholderInput)
    requires Update(st, id, input).Ok?
    ensures var was := Lookup(st.stakeholders.rows, id).value;
      var now := Lookup(Update(st, id, input).value.stakeholders.rows, id).value;
      && now.name == input.name && now.email == input.email
      && (input.position.Omitted? ==> now.position == was.position)
      && (input.position.Null? ==> now.position.None?)
      && (input.position.Sent? ==> now.position == Some(input.position.value))
      && (input.department.Omitted? ==> now.department == was.department)
      && (input.department.Null? ==> now.department.None?)
      && (input.department.Sent? ==> now.department == Some(input.department.value))
      && now.receiveAlerts == input.receiveAlerts.GetOr(was.receiveAlerts)
  {
  }

  /** The stakeholder rows other than `id`. */
  function OtherThan(id: nat): Row<Stakeholder> -> bool {
    (x: Row<Stakeholder>) => x.id != id
  }

  /** `destroy`: a stakeholder that any record of any scope references is kept
      and the request refused; otherwise exactly that stakeholder is deleted. */
  function Destroy(st: Store, id: nat): (r: Result<Store, Error>)
    ensures Lookup(st.stakeholders.rows, id).None? <==> r == Err(NotFound)
    ensures Lookup(st.stakeholders.rows, id).Some? ==> (r == Err(InUse) <==> StakeholderReferenced(st, id))
    ensures r.Ok? <==> Lookup(st.stakeholders.rows, id).Some? && !StakeholderReferenced(st, id)
    ensures r.Ok? ==> forall x :: x in r.value.stakeholders.rows <==> x in st.stakeholders.rows && x.id != id
    ensures r.Ok? ==> r.value == st.(stakeholders := Retain(st.stakeholders, OtherThan(id)))
  {
    if Lookup(st.stakeholders.rows, id).None? then Err(NotFound)
    else if StakeholderReferenced(st, id) then Err(InUse)
    else Ok(st.(stakeholders := Retain(st.stakeholders, OtherThan(id))))
  }

  /** The tables of emission records are those of `st`. */
  lemma SameRecords(st: Store, st': Store)
    requires st'.scope1 == st.scope1 && st'.scope2 == st.scope2 && st'.scope3 == st.scope3
    ensures forall s :: Emissions(st', s) == Emissions(st, s)
  {
  }

  /** Creating a stakeholder keeps the database invariant and every cached result. */
  lemma CreatePreserves(st: Store, input: StakeholderInput, alertsDefault: bool)
    requires Valid(st) && Create(st, input, alertsDefault).Ok?
    ensures Valid(Create(st, input, alertsDefault).value)
    ensures CacheConsistent(st) ==> CacheConsistent(Create(st, input, alertsDefault).value)
  {
    var st' := Create(st, input, alertsDefault).value;
    SameRecords(st, st');
    forall s, i | 0 <= i < |Emissions(st', s).rows|
      ensures RecordValid(st', s, Emissions(st', s).rows[i].val)
    {
      var e := Emissions(st', s).rows[i].val;
      assert RecordValid(st, s, e);
      if e.stakeholderId.Some? {
        var k := e.stakeholderId.value;
        LookupSpec(st.stakeholders.rows, k);
        var j :| 0 <= j < |st.stakeholders.rows| && st.stakeholders.rows[j].id == k;
        LookupUnique(st'.stakeholders, j);
      }
    }
  }

  /** Updating a stakeholder keeps the database invariant and every cached result. */
  lemma UpdatePreserves(st: Store, id: nat, input: StakeholderInput)
    requires Valid(st) && Update(st, id, input).Ok?
    ensures Valid(Update(st, id, input).value)
    ensures CacheConsistent(st) ==> CacheConsistent(Update(st, id, input).value)
  {
    var st' := Update(st, id, input).value;
    SameRecords(st, st');
    ReplaceWellFormed(st.stakeholders, id, Lookup(st'.stakeholders.rows, id).value);
    forall s, i | 0 <= i < |Emissions(st', s).rows|
      ensures RecordValid(st', s, Emissions(st', s).rows[i].val)
    {
      assert RecordValid(st, s, Emissions(st, s).rows[i].val);
    }
  }

  /** Deleting an unreferenced stakeholder keeps the database invariant and
      every cached result: no record loses its stakeholder. */
  lemma DestroyPreserves(st: Store, id: nat)
    requires Valid(st) && Destroy(st, id).Ok?
    ensures Valid(Destroy(st, id).value)
    ensures CacheConsistent(st) ==> CacheConsistent(Destroy(st, id).value)
  {
    var st' := Destroy(st, id).value;
    SameRecords(st, st');
    forall s, i | 0 <= i < |Emissions(st', s).rows|
      ensures RecordValid(st', s, Emissions(st', s).rows[i].val)
    {
      var e := Emissions(st', s).rows[i].val;
      assert RecordValid(st, s, e);
      if e.stakeholderId.Some? {
        assert e.stakeholderId != Some(id);
        RetainLookup(st.stakeholders, OtherThan(id), e.stakeholderId.value);
      }
    }
  }

  /** A record that references a stakeholder blocks its deletion. */
  lemma ReferencedIsKept(st: Store, id: nat, s: Scope, i: int)
    requires 0 <= i < |Emissions(st, s).rows| && Emissions(st, s).rows[i].val.stakeholderId == Some(id)
    ensures Destroy(st, id).Err?
  {
  }

  /** The search term occurs in the name, the email, the department or the
      position; an absent department or position matches nothing. */
  predicate SearchHit(x: Stakeholder, term: string) {
    || Contains(x.name, term)
    || Contains(x.email, term)
    || (x.department.Some? && Contains(x.department.value, term))
    || (x.position.Some? && Contains(x.position.value, term))
  }

  /** The rows a search keeps. */
  function Searching(term: string): Row<Stakeholder> -> bool {
    (x: Row<Stakeholder>) => SearchHit(x.val, term)
  }

  /** `orderBy('id', 'desc')`. */
  predicate IdDesc(a: Row<Stakeholder>, b: Row<Stakeholder>) {
    a.id >= b.id
  }

  /** `index`: with a `search` parameter (even an empty one) only the
      stakeholders it hits, newest id first. */
  function Index(st: Store, search: Option<string>): (r: seq<Row<Stakeholder>>)
    ensures forall x :: x in r <==>
      x in st.stakeholders.rows && (search.Some? ==> SearchHit(x.val, search.value))
    ensures multiset(r) <= multiset(st.stakeholders.rows)
    ensures Sorted(r, IdDesc)
  {
    var rows := if search.Some? then Filter(st.stakeholders.rows, Searching(search.value)) else st.stakeholders.rows;
    var r := Sort(rows, IdDesc);
    assert multiset(rows) <= multiset(st.stakeholders.rows) by {
      if search.Some? {
        FilterStronger(st.stakeholders.rows, Searching(search.value), (x: Row<Stakeholder>) => true);
        FilterAll(st.stakeholders.rows, (x: Row<Stakeholder>) => true);
      }
    }
    assert forall x :: x in r <==> x in rows by {
      forall x
        ensures x in r <==> x in rows
      {
        assert x in r <==> multiset(r)[x] > 0;
        assert x in rows <==> multiset(rows)[x] > 0;
      }
    }
    r
  }

  /** In a well-formed table the listing's ids strictly decrease: no two
      listed rows share an id. */
  lemma IndexStrictlyDescending(st: Store, search: Option<string>, i: int, j: int)
    requires WellFormed(st.stakeholders)
    requires 0 <= i < j < |Index(st, search)|
    ensures Index(st, search)[i].id > Index(st, search)[j].id
  {
    var r := Index(st, search);
    var rows := st.stakeholders.rows;
    SortedAllPairs(r, IdDesc, i, j);
    if r[i].id == r[j].id {
      SameIdSameRow(st.stakeholders, r[i], r[j]);
      TwiceCounted(r, i, j);
      DistinctRows(st.stakeholders);
      DistinctCount(rows, r[i]);
    }
  }

  /** An empty search term hits every stakeholder: the name always contains it. */
  lemma EmptySearchListsAll(st: Store)
    ensures multiset(Index(st, Some(""))) == multiset(st.stakeholders.rows)
  {
    var rows := st.stakeholders.rows;
    assert forall i :: 0 <= i < |rows| ==> Searching("")(rows[i]) by {
      forall i | 0 <= i < |rows|
        ensures Searching("")(rows[i])
      {
        assert IsPrefix("", rows[i].val.name);
      }
    }
    FilterAll(rows, Searching(""));
  }
}

=== FILE: store.dfy ===
/** The database: the factor catalogue, the stakeholders and one table of
    emission records per scope, with the integrity rules the schema and the
    controllers maintain together. */
module Store {
  import opened Common
  import opened Domain
  import opened Tables
  import opened Calculator

  datatype Store = Store(
    factors: Table<EmissionFactor>,
    stakeholders: Table<Stakeholder>,
    scope1: Table<Emission>,
    scope2: Table<Emission>,
    scope3: Table<Emission>)

  /** Why an operation was refused: a validation rule failed on a field, the
      addressed row does not exist, or the row is still referenced. */
  datatype Error = Invalid(field: string) | NotFound | InUse

  /** The record table of a scope. */
  function Emissions(st: Store, s: Scope): Table<Emission> {
    match s
    case Scope1 => st.scope1
    case Scope2 => st.scope2
    case Scope3 => st.scope3
  }

  /** Replaces the record table of one scope. */
  function WithEmissions(st: Store, s: Scope, t: Table<Emission>): (r: Store)
    ensures Emissions(r, s) == t
    ensures forall o :: o != s ==> Emissions(r, o) == Emissions(st, o)
    ensures r.factors == st.factors && r.stakeholders == st.stakeholders
  {
    match s
    case Scope1 => st.(scope1 := t)
    case Scope2 => st.(scope2 := t)
    case Scope3 => st.(scope3 := t)
  }

  /** The factor a record references, as `$record->emissionFactor` loads it. */
  function FactorOf(st: Store, e: Emission): Option<EmissionFactor> {
    Lookup(st.factors.rows, e.factorId)
  }

  /** A record is well placed and referentially sound: it sits in its scope's
      table, its factor exists (the non-null foreign key), its stakeholder exists
      when it has one, and its fields passed validation. */
  predicate RecordValid(st: Store, s: Scope, e: Emission) {
    && DetailScope(e.detail) == s
    && FactorOf(st, e).Some?
    && (e.stakeholderId.None? || Lookup(st.stakeholders.rows, e.stakeholderId.value).Some?)
    && ValidDate(e.date)
    && e.activity >= 0.0
    && (e.detail.Energy? ==> e.detail.rec >= 0.0)
  }

  /** The database invariant. */
  predicate Valid(st: Store) {
    && WellFormed(st.factors)
    && WellFormed(st.stakeholders)
    && (forall s :: WellFormed(Emissions(st, s)))
    && (forall s, i :: 0 <= i < |Emissions(st, s).rows| ==> RecordValid(st, s, Emissions(st, s).rows[i].val))
  }

  /** A record's cached `emission_result` is what its controller would compute now. */
  predicate Consistent(st: Store, s: Scope, e: Emission) {
    e.result == StoredResult(s, CalculateEmission(e, FactorOf(st, e)))
  }

  /** Every cached result is up to date with the factor catalogue. */
  predicate CacheConsistent(st: Store) {
    forall s, i :: 0 <= i < |Emissions(st, s).rows| ==> Consistent(st, s, Emissions(st, s).rows[i].val)
  }

  /** Some record of any scope references this stakeholder. */
  predicate StakeholderReferenced(st: Store, id: nat) {
    exists s, i :: 0 <= i < |Emissions(st, s).rows| && Emissions(st, s).rows[i].val.stakeholderId == Some(id)
  }

  /** The empty database. */
  function Empty(): (st: Store)
    ensures Valid(st) && CacheConsistent(st)
  {
    Store(Table([], 1), Table([], 1), Table([], 1), Table([], 1), Table([], 1))
  }
}

=== FILE: tables.dfy ===
/** A database table: rows in insertion order with auto-increment ids. */
module Tables {
  import opened Common
  import opened Domain
  import Seqs

  datatype Table<T> = Table(rows: seq<Row<T>>, nextId: nat)

  /** Ids strictly increase along the rows and stay below the next id to hand out. */
  predicate WellFormed<T>(t: Table<T>) {
    && (forall i, j :: 0 <= i < j < |t.rows| ==> t.rows[i].id < t.rows[j].id)
    && (forall i :: 0 <= i < |t.rows| ==> t.rows[i].id < t.nextId)
  }

  /** Some row has this id. */
  predicate HasId<T>(t: Table<T>, id: nat) {
    exists i :: 0 <= i < |t.rows| && t.rows[i].id == id
  }

  /** The fields of the row with this id: route-model binding, or `exists:` validation. */
  function Lookup<T>(rows: seq<Row<T>>, id: nat): Option<T> {
    if |rows| == 0 then None
    else if rows[0].id == id then Some(rows[0].val)
    else Lookup(rows[1..], id)
  }

  /** The lookup finds a row exactly when some row has the id, and what it
      finds is the fields of such a row. */
  lemma {:induction false} LookupSpec<T>(rows: seq<Row<T>>, id: nat)
    ensures Lookup(rows, id).None? <==> forall i :: 0 <= i < |rows| ==> rows[i].id != id
    ensures Lookup(rows, id).Some? ==> exists i :: 0 <= i < |rows| && rows[i] == Row(id, Lookup(rows, id).value)
  {
    if |rows| > 0 && rows[0].id != id {
      LookupSpec(rows[1..], id);
      assert forall i :: 1 <= i < |rows| ==> rows[i] == rows[1..][i - 1];
      if Lookup(rows, id).Some? {
        var i :| 0 <= i < |rows[1..]| && rows[1..][i] == Row(id, Lookup(rows, id).value);
        assert rows[i + 1] == rows[1..][i];
      }
    }
  }

  /** In a well-formed table, the looked-up row is the unique row with that id. */
  lemma LookupUnique<T>(t: Table<T>, i: int)
    requires WellFormed(t) && 0 <= i < |t.rows|
    ensures Lookup(t.rows, t.rows[i].id) == Some(t.rows[i].val)
  {
    var r := Lookup(t.rows, t.rows[i].id);
    LookupSpec(t.rows, t.rows[i].id);
    var k :| 0 <= k < |t.rows| && t.rows[k] == Row(t.rows[i].id, r.value);
    assert k == i;
  }

  /** Appends a row under the next id. */
  function Insert<T>(t: Table<T>, v: T): (r: Table<T>)
    ensures WellFormed(t) ==> WellFormed(r) && Lookup(r.rows, t.nextId) == Some(v)
    ensures r.rows == t.rows + [Row(t.nextId, v)]
    ensures r.nextId == t.nextId + 1
  {
    var r := Table(t.rows + [Row(t.nextId, v)], t.nextId + 1);
    assert WellFormed(t) ==> WellFormed(r) && Lookup(r.rows, t.nextId) == Some(v) by {
      if WellFormed(t) {
        LookupUnique(r, |t.rows|);
      }
    }
    r
  }

  /** Replaces the fields of the row with this id, keeping its place and id. */
  function Replace<T>(rows: seq<Row<T>>, id: nat, v: T): (r: seq<Row<T>>)
    ensures |r| == |rows|
    ensures forall i :: 0 <= i < |rows| ==>
      r[i] == (if rows[i].id == id then Row(id, v) else rows[i])
  {
    seq(|rows|, i requires 0 <= i < |rows| => if rows[i].id == id then Row(id, v) else rows[i])
  }

  /** Keeps the rows whose fields satisfy `keep`: a `DELETE ... WHERE not keep`. */
  function Retain<T(==,!new)>(t: Table<T>, keep: Row<T> -> bool): (r: Table<T>)
    ensures WellFormed(t) ==> WellFormed(r)
    ensures r.nextId == t.nextId
    ensures forall x :: x in r.rows <==> x in t.rows && keep(x)
  {
    var rows := Seqs.Filter(t.rows, keep);
    assert WellFormed(t) ==> WellFormed(Table(rows, t.nextId)) by {
      if WellFormed(t) {
        SubsequenceIncreasing(rows, t.rows);
        assert forall i :: 0 <= i < |rows| ==> rows[i] in t.rows;
      }
    }
    Table(rows, t.nextId)
  }

  /** Ids are strictly increasing. */
  predicate Increasing<T>(rows: seq<Row<T>>) {
    forall i, j :: 0 <= i < j < |rows| ==> rows[i].id < rows[j].id
  }

  /** Leaving rows out keeps ids increasing. */
  lemma {:induction false} SubsequenceIncreasing<T>(a: seq<Row<T>>, b: seq<Row<T>>)
    requires Seqs.IsSubsequence(a, b) && Increasing(b)
    ensures Increasing(a)
    ensures forall x :: x in a ==> x in b
    decreases |b|
  {
    if |a| > 0 {
      if a[0] == b[0] && Seqs.IsSubsequence(a[1..], b[1..]) {
        SubsequenceIncreasing(a[1..], b[1..]);
        forall j | 0 < j < |a|
          ensures a[0].id < a[j].id
        {
          assert a[j] == a[1..][j - 1];
          assert a[j] in b[1..];
          var k :| 0 <= k < |b[1..]| && b[1..][k] == a[j];
          assert b[k + 1] == a[j];
        }
        forall x | x in a
          ensures x in b
        {
          if x != a[0] {
            assert x in a[1..];
          }
        }
      } else {
        SubsequenceIncreasing(a, b[1..]);
      }
    }
  }

  /** Replacing a row's fields keeps the ids, so a well-formed table stays so. */
  lemma ReplaceWellFormed<T>(t: Table<T>, id: nat, v: T)
    requires WellFormed(t)
    ensures WellFormed(Table(Replace(t.rows, id, v), t.nextId))
  {
    var r := Replace(t.rows, id, v);
    assert forall i :: 0 <= i < |r| ==> r[i].id == t.rows[i].id;
  }

  /** After a replacement the addressed id finds the new fields (if it was
      present) and every other id finds what it found before. */
  lemma {:induction false} ReplaceLookup<T>(rows: seq<Row<T>>, id: nat, v: T, k: nat)
    ensures Lookup(Replace(rows, id, v), k)
      == if k == id && Lookup(rows, id).Some? then Some(v) else Lookup(rows, k)
  {
    if |rows| > 0 {
      var r := Replace(rows, id, v);
      assert r[1..] == Replace(rows[1..], id, v);
      ReplaceLookup(rows[1..], id, v, k);
    }
  }

  /** A row that is kept is still found, with the same fields. */
  lemma RetainLookup<T(!new)>(t: Table<T>, keep: Row<T> -> bool, id: nat)
    requires WellFormed(t) && Lookup(t.rows, id).Some?
    requires keep(Row(id, Lookup(t.rows, id).value))
    ensures Lookup(Retain(t, keep).rows, id) == Lookup(t.rows, id)
  {
    var r := Retain(t, keep);
    LookupSpec(t.rows, id);
    var x := Row(id, Lookup(t.rows, id).value);
    assert x in r.rows;
    var i :| 0 <= i < |r.rows| && r.rows[i] == x;
    LookupUnique(r, i);
  }

  /** A row that is dropped is no longer found. */
  lemma RetainDrops<T(!new)>(t: Table<T>, keep: Row<T> -> bool, id: nat)
    requires WellFormed(t)
    requires forall x :: x in t.rows && x.id == id ==> !keep(x)
    ensures Lookup(Retain(t, keep).rows, id).None?
  {
    LookupSpec(Retain(t, keep).rows, id);
  }

  /** In a well-formed table a row is determined by its id. */
  lemma SameIdSameRow<T>(t: Table<T>, x: Row<T>, y: Row<T>)
    requires WellFormed(t) && x in t.rows && y in t.rows && x.id == y.id
    ensures x == y
  {
    var k :| 0 <= k < |t.rows| && t.rows[k] == x;
    var l :| 0 <= l < |t.rows| && t.rows[l] == y;
  }

  /** The rows of a well-formed table are pairwise distinct. */
  lemma DistinctRows<T>(t: Table<T>)
    requires WellFormed(t)
    ensures forall i, j :: 0 <= i < j < |t.rows| ==> t.rows[i] != t.rows[j]
  {
  }
}

=== FILE: text.dfy ===
/** Strings as the application compares, searches and prints them. */
module Text {

  /** Lexicographic order on strings, character by character (`orderBy('name')`). */
  predicate StrLe(a: string, b: string) {
    |a| == 0 || (|b| > 0 && (a[0] < b[0] || (a[0] == b[0] && StrLe(a[1..], b[1..]))))
  }

  /** Any two strings are ordered one way or the other. */
  lemma {:induction false} StrLeTotal(a: string, b: string)
    ensures StrLe(a, b) || StrLe(b, a)
  {
    if |a| > 0 && |b| > 0 && a[0] == b[0] {
      StrLeTotal(a[1..], b[1..]);
    }
  }

  /** The order is transitive. */
  lemma {:induction false} StrLeTransitive(a: string, b: string, c: string)
    requires StrLe(a, b) && StrLe(b, c)
    ensures StrLe(a, c)
  {
    if |a| > 0 && |b| > 0 && |c| > 0 && a[0] == b[0] && b[0] == c[0] {
      StrLeTransitive(a[1..], b[1..], c[1..]);
    }
  }

  /** `t` starts `s`. */
  predicate IsPrefix(t: string, s: string) {
    |t| <= |s| && s[..|t|] == t
  }

  /** `t` occurs in `s`: SQL `s LIKE '%t%'`, searching from left to right. */
  predicate Contains(s: string, t: string)
    decreases |s|
  {
    IsPrefix(t, s) || (|s| > 0 && Contains(s[1..], t))
  }

  /** `t` occurs in `s` starting at position `i`. */
  predicate OccursAt(s: string, t: string, i: int) {
    0 <= i && i + |t| <= |s| && s[i..i + |t|] == t
  }

  /** The search agrees with the positional definition of a substring. */
  lemma {:induction false} ContainsIffOccurs(s: string, t: string)
    ensures Contains(s, t) <==> exists i :: OccursAt(s, t, i)
    decreases |s|
  {
    if IsPrefix(t, s) {
      assert OccursAt(s, t, 0);
    } else if |s| > 0 {
      ContainsIffOccurs(s[1..], t);
      if Contains(s[1..], t) {
        var i :| OccursAt(s[1..], t, i);
        assert s[i + 1..i + 1 + |t|] == s[1..][i..i + |t|];
        assert OccursAt(s, t, i + 1);
      } else {
        forall i | OccursAt(s, t, i)
          ensures false
        {
          if i != 0 {
            assert s[1..][i - 1..i - 1 + |t|] == s[i..i + |t|];
            assert OccursAt(s[1..], t, i - 1);
          }
        }
      }
    }
  }

  /** The decimal digit for `d`. */
  function Digit(d: nat): (c: char)
    requires d < 10
    ensures '0' <= c <= '9'
  {
    ['0', '1', '2', '3', '4', '5', '6', '7', '8', '9'][d]
  }

  /** The value of a decimal digit. */
  function DigitValue(c: char): (d: nat)
    requires '0' <= c <= '9'
    ensures d < 10
  {
    (c as int) - ('0' as int)
  }

  /** Only decimal digits. */
  predicate AllDigits(s: string) {
    forall i :: 0 <= i < |s| ==> '0' <= s[i] <= '9'
  }

  /** The decimal text of a number: PHP's `(string)$y` and JavaScript's `toString()`. */
  function NatToString(n: nat): (s: string)
    ensures |s| > 0 && AllDigits(s)
  {
    if n < 10 then [Digit(n)] else NatToString(n / 10) + [Digit(n % 10)]
  }

  /** Reads a string of decimal digits. */
  function ParseNat(s: string): nat
    requires AllDigits(s)
  {
    if |s| == 0 then 0 else 10 * ParseNat(s[..|s| - 1]) + DigitValue(s[|s| - 1])
  }

  /** Printing a number and reading it back gives the number. */
  lemma {:induction false} ParseNatToString(n: nat)
    ensures ParseNat(NatToString(n)) == n
  {
    if n >= 10 {
      ParseNatToString(n / 10);
      var s := NatToString(n);
      assert s[..|s| - 1] == NatToString(n / 10);
    }
  }

  /** Different numbers print differently. */
  lemma NatToStringInjective(m: nat, n: nat)
    requires NatToString(m) == NatToString(n)
    ensures m == n
  {
    ParseNatToString(m);
    ParseNatToString(n);
  }
}

=== FILE: trajectory.dfy ===
/** The 2030 reduction target of the dashboard: the 2024 baseline with its
    fallbacks, the 45% target, and the seven-point yearly trajectory of
    linearly decreasing targets against the measured totals. */
module Trajectory {
  import opened Common
  import opened Decimal
  import opened Text
  import opened Store
  import opened Aggregates
  import DashboardTotals

  /** The year the baseline is measured in. */
  const BaselineYear: int := 2024

  /** The year the reduction is to be reached by. */
  const TargetYear: int := 2030

  /** The reduction to be reached by the target year: 45%. */
  const Reduction: real := 0.45

  /** The baseline used when there is neither 2024 data nor a positive grand
      total: the 2024 report figure, in tons. */
  const FallbackBaseline: real := 752733.86

  /** `$baseline2024`: the 2024 total of the three scopes in tons; when that
      is 0, the grand total if it is positive, and otherwise the report
      figure. */
  function Baseline(st: Store, grandTotal: real): (b: real)
    ensures b != 0.0
    ensures AllScopesYearSum(st, BaselineYear) != 0.0 ==> b * 1000.0 == AllScopesYearSum(st, BaselineYear)
    ensures AllScopesYearSum(st, BaselineYear) == 0.0 ==> b == (if grandTotal > 0.0 then grandTotal else FallbackBaseline)
  {
    var measured := AllScopesYearSum(st, BaselineYear) / 1000.0;
    if measured == 0.0 then
      (if grandTotal > 0.0 then grandTotal else FallbackBaseline)
    else measured
  }

  /** The baseline as the dashboard computes it: its grand total is that of
      the request's scope, department and date filters. */
  function DashboardBaseline(st: Store, f: DashboardTotals.DashboardFilters): (b: real)
    ensures AllScopesYearSum(st, BaselineYear) == 0.0 && DashboardTotals.GrandTotal(st, f) > 0.0 ==>
      b == DashboardTotals.GrandTotal(st, f)
    ensures AllScopesYearSum(st, BaselineYear) == 0.0 && DashboardTotals.GrandTotal(st, f) <= 0.0 ==>
      b == FallbackBaseline
  {
    Baseline(st, DashboardTotals.GrandTotal(st, f))
  }

  /** With 2024 data the filters do not move the baseline; without it they
      move it exactly as far as they move the grand total. */
  lemma BaselineAndFilters(st: Store, f: DashboardTotals.DashboardFilters, g: DashboardTotals.DashboardFilters)
    ensures AllScopesYearSum(st, BaselineYear) != 0.0 ==> DashboardBaseline(st, f) == DashboardBaseline(st, g)
    ensures DashboardTotals.GrandTotal(st, f) == DashboardTotals.GrandTotal(st, g) ==>
      DashboardBaseline(st, f) == DashboardBaseline(st, g)
  {
  }

  /** `$target2030`: the baseline reduced by 45%. */
  function Target2030(b: real): (t: real)
    ensures b - t == Reduction * b
  {
    b * (1.0 - Reduction)
  }

  /** The target of year `y` on the straight line from the baseline in 2024
      to the 2030 target, in six equal yearly steps. */
  function TargetFor(b: real, y: int): (t: real)
    ensures t == b * (1.0 - 0.075 * (y - BaselineYear) as real)
  {
    var reductionPerYear := (b - Target2030(b)) / (TargetYear - BaselineYear) as real;
    b - (y - BaselineYear) as real * reductionPerYear
  }

  /** The line starts at the baseline and ends at the 2030 target. */
  lemma TargetEndpoints(b: real)
    ensures TargetFor(b, BaselineYear) == b
    ensures TargetFor(b, TargetYear) == Target2030(b)
    ensures Target2030(b) == b * 0.55
  {
  }

  /** Each year lowers the target by the same step: 7.5% of the baseline. */
  lemma TargetStep(b: real, y: int)
    ensures TargetFor(b, y) - TargetFor(b, y + 1) == b * 0.075
  {
  }

  /** For a non-negative baseline the targets never rise from one year to a later one. */
  lemma TargetNonIncreasing(b: real, y: int, z: int)
    requires 0.0 <= b && y <= z
    ensures TargetFor(b, z) <= TargetFor(b, y)
  {
    var d := (z - y) as real;
    assert TargetFor(b, y) - TargetFor(b, z) == d * (b * 0.075);
    assert 0.0 <= d * (b * 0.075);
  }

  /** A point of the target chart: the year as text, the rounded target, and
      the rounded measured total when there is one. */
  datatype Point = Point(year: string, target: real, actual: Option<real>)

  /** The `$actualValue` of year `y`, as written: nothing for a year after the
      current one; the year's total in tons for the others, except that a 0
      total of a past year becomes nothing. */
  function ActualValue(st: Store, y: int, currentYear: int): Option<real> {
    if y <= currentYear then
      var a := AllScopesYearSum(st, y) / 1000.0;
      if a == 0.0 && y != currentYear then None else Some(a)
    else None
  }

  /** `$actualValue ? round($actualValue, 2) : null`: a value that PHP reads as
      false, null or 0, gives no point either. */
  function Actual(st: Store, y: int, currentYear: int): (r: Option<real>)
    ensures r.Some? <==> y <= currentYear && AllScopesYearSum(st, y) != 0.0
    ensures r.Some? ==> r.value == Round2(AllScopesYearSum(st, y) / 1000.0)
  {
    match ActualValue(st, y, currentYear)
    case None => None
    case Some(a) =>
      assert a == AllScopesYearSum(st, y) / 1000.0;
      if a != 0.0 then Some(Round2(a)) else None
  }

  /** The point of year `y`. */
  function PointFor(st: Store, b: real, y: nat, currentYear: int): Point {
    Point(NatToString(y), Round2(TargetFor(b, y)), Actual(st, y, currentYear))
  }

  /** `$targetChartData`: one point for each year from 2024 to 2030, in order. */
  function Chart(st: Store, b: real, currentYear: int): (r: seq<Point>)
    ensures |r| == TargetYear - BaselineYear + 1
  {
    seq(TargetYear - BaselineYear + 1, k requires 0 <= k => PointFor(st, b, BaselineYear + k, currentYear))
  }

  /** `$targetChartData` as the dashboard sends it: the trajectory from the
      baseline of the request's filters. */
  function DashboardChart(st: Store, f: DashboardTotals.DashboardFilters, currentYear: int): (r: seq<Point>)
    ensures |r| == TargetYear - BaselineYear + 1
    ensures forall k :: 0 <= k < |r| ==>
      r[k].target == Round2(TargetFor(DashboardBaseline(st, f), BaselineYear + k))
    ensures forall k :: 0 <= k < |r| ==> r[k].actual == Actual(st, BaselineYear + k, currentYear)
  {
    var b := DashboardBaseline(st, f);
    assert forall k :: 0 <= k < 7 ==> Chart(st, b, currentYear)[k] == PointFor(st, b, BaselineYear + k, currentYear);
    Chart(st, b, currentYear)
  }

  /** Without 2024 data and with a positive filtered grand total, the
      trajectory starts at that grand total: the filters pick the baseline,
      and with it every target and the alert. */
  lemma DashboardChartFromGrandTotal(st: Store, f: DashboardTotals.DashboardFilters, currentYear: int)
    requires AllScopesYearSum(st, BaselineYear) == 0.0 && DashboardTotals.GrandTotal(st, f) > 0.0
    ensures DashboardChart(st, f, currentYear)[0].target == DashboardTotals.GrandTotal(st, f)
    ensures DashboardChart(st, f, currentYear)[6].target == Round2(DashboardTotals.GrandTotal(st, f) * 0.55)
  {
    DashboardTotals.GrandTotalAlreadyRounded(st, f);
    TargetEndpoints(DashboardTotals.GrandTotal(st, f));
  }

  /** The `k`-th point is the point of year 2024 + k. */
  lemma ChartAt(st: Store, b: real, currentYear: int, k: int)
    requires 0 <= k < 7
    ensures Chart(st, b, currentYear)[k] == PointFor(st, b, BaselineYear + k, currentYear)
  {
  }

  /** The year of the `k`-th chart point. */
  lemma ChartYear(st: Store, b: real, currentYear: int, k: int)
    requires 0 <= k < 7
    ensures Chart(st, b, currentYear)[k].year == NatToString(BaselineYear + k)
  {
    ChartAt(st, b, currentYear, k);
  }

  /** The target of the `k`-th chart point. */
  lemma ChartTarget(st: Store, b: real, currentYear: int, k: int)
    requires 0 <= k < 7
    ensures Chart(st, b, currentYear)[k].target == Round2(TargetFor(b, BaselineYear + k))
  {
    ChartAt(st, b, currentYear, k);
  }

  /** The measured total of the `k`-th chart point is that of its year. */
  lemma ChartActual(st: Store, b: real, currentYear: int, k: int)
    requires 0 <= k < 7
    ensures Chart(st, b, currentYear)[k].actual == Actual(st, BaselineYear + k, currentYear)
  {
    ChartAt(st, b, currentYear, k);
  }

  /** The year texts 2024 + k read back as themselves and differ from each other. */
  lemma YearTexts(k: int, l: int)
    requires 0 <= k && 0 <= l
    ensures ParseYear(NatToString(BaselineYear + k)) == Some(BaselineYear + k)
    ensures k != l ==> NatToString(BaselineYear + k) != NatToString(BaselineYear + l)
  {
    ParseYearOfText(BaselineYear + k);
    if k != l && NatToString(BaselineYear + k) == NatToString(BaselineYear + l) {
      NatToStringInjective(BaselineYear + k, BaselineYear + l);
    }
  }

  /** The chart's years read back as 2024, ..., 2030 and are all different. */
  lemma ChartYears(st: Store, b: real, currentYear: int, k: int, l: int)
    requires 0 <= k < 7 && 0 <= l < 7
    ensures ParseYear(Chart(st, b, currentYear)[k].year) == Some(BaselineYear + k)
    ensures k != l ==> Chart(st, b, currentYear)[k].year != Chart(st, b, currentYear)[l].year
  {
    ChartYear(st, b, currentYear, k);
    ChartYear(st, b, currentYear, l);
    YearTexts(k, l);
  }

  /** The first point carries the rounded baseline, the last the rounded 2030 target. */
  lemma ChartEndpoints(st: Store, b: real, currentYear: int)
    ensures Chart(st, b, currentYear)[0].target == Round2(b)
    ensures Chart(st, b, currentYear)[6].target == Round2(Target2030(b))
  {
    ChartTarget(st, b, currentYear, 0);
    ChartTarget(st, b, currentYear, 6);
    TargetEndpoints(b);
  }

  /** For a non-negative baseline the rounded targets never rise along the chart. */
  lemma ChartTargetsNonIncreasing(st: Store, b: real, currentYear: int, k: int, l: int)
    requires 0.0 <= b && 0 <= k <= l < 7
    ensures Chart(st, b, currentYear)[l].target <= Chart(st, b, currentYear)[k].target
  {
    ChartTarget(st, b, currentYear, k);
    ChartTarget(st, b, currentYear, l);
    TargetNonIncreasing(b, BaselineYear + k, BaselineYear + l);
    Round2Monotone(TargetFor(b, BaselineYear + l), TargetFor(b, BaselineYear + k));
  }

  /** A year after the current one has no measured point, and neither has a
      year whose total is 0, the current year included. */
  lemma ChartActuals(st: Store, b: real, currentYear: int, k: int)
    requires 0 <= k < 7
    ensures BaselineYear + k > currentYear ==> Chart(st, b, currentYear)[k].actual.None?
    ensures AllScopesYearSum(st, BaselineYear + k) == 0.0 ==> Chart(st, b, currentYear)[k].actual.None?
  {
    ChartActual(st, b, currentYear, k);
  }

  /** With no records at all the chart follows the report figure: its 2030
      target is 414003.62 tons. */
  lemma FallbackTarget()
    ensures Round2(Target2030(FallbackBaseline)) == 414003.62
  {
    assert Target2030(FallbackBaseline) == 414003.623;
    assert (414003.623 * 100.0 + 0.5).Floor == 41400362;
  }
}
